=== FILE: README.md ===
# Rewrites: staged revisions, modelled in Dafny

Rewrites is a WordPress plugin that lets an editor stage changes to a
published post as a *staged revision*. A staged revision is an ordinary
revision row that carries a `_staged_revision` marker. The live post is not
touched until the revision is published, either by hand or by a one-shot
scheduled event. A revision moves through the workflow statuses pending,
approved and rejected. A settings page keeps a pre-publish checklist.

This project models that engine over one immutable store value
(`Types.Store`), which holds:

- the posts table (parents and revisions), keyed by ID;
- the five workflow meta keys of each revision;
- each parent's `_has_staged_revision` pointer;
- the armed `rewrites_publish_staged` events, in scheduling order;
- the log of fired actions;
- the auto-increment counter.

Every operation is a pure function that returns a tagged result
(`Ok`, or one of the plugin's `WP_Error` codes) together with the store it
leaves behind.

Modules:

- `Types`: the store, posts, meta, events, errors. `Valid` states what the
  host guarantees of its tables.
- `Rewrites`: the registered meta defaults and the
  `wp_save_post_revision_post_has_changed` filter.
- `Scheduler`: the one-shot timer list and `wp_clear_scheduled_hook`.
- `Queries`: the host queries the engine relies on, as filter, sort
  (newest first, ID as tie-break) and slice over sequences.
- `StagedRevision`: `create`, `get`, `get_by_id`, `publish`, `schedule`,
  `discard`, `approve`, `reject`, `get_all`, `format_for_response`.
- `CronHandler`: `handle_scheduled_publish`.
- `Settings`: the checklist options, the AJAX save handler (as written and corrected), its readers, and
  the settings form's encoding of what it submits.
- `Workflow`: the store-wide invariant. Each parent's pointer designates exactly
  its one marked revision, and every operation keeps that so, except a
  discard whose deletion fails (`FailedDeleteLeavesStaged`).
- `Scenarios`: sequences of operations. These cover create twice, publish
  twice, schedule twice, reject before the event fires, and approve then
  publish.

The host's side effects are parameters:

- `writeOk`: `wp_insert_post`/`wp_update_post` succeeds.
- `restoreOk`: `wp_restore_post_revision` succeeds.
- `armOk`: `wp_schedule_single_event` succeeds.
- `deleteOk`: `wp_delete_post_revision` succeeds.
- `prev`: the settings options as stored before a save.
- `now`: the clock.
- `Option<int>`: the result of `strtotime`.
- `sanitize`: an opaque `string -> string` for the host's sanitisers.
- `userId`: the current user.

## Model

| member | source | states |
|---|---|---|
| Rewrites.AbsentMetaDefaults | includes/class-rewrites.php:53-74 | A revision with no workflow keys stored reads as unmarked, status "pending", author 0 and empty notes |
| Rewrites.ProtectStagedRevisions | includes/class-rewrites.php:211-219 | A marked last revision forces "changed"; otherwise the host's verdict passes through; a true verdict is never turned false |
| Rewrites.ProtectReadsOnlyMarker | includes/class-rewrites.php:211-219 | The filter depends on nothing but the last revision's marker: same marker and verdict give the same answer whatever the posts |
| Scheduler.TimersFor | includes/class-rewrites-staged-revision.php:235-239 | The events carrying one revision are exactly the armed events with that argument, in order |
| Scheduler.ClearTimers | includes/class-rewrites-staged-revision.php:228-229 | Clearing the hook for one revision removes all of its events, keeps every other revision's events as they were, and is a no-op when none is armed |
| Scheduler.Arm | includes/class-rewrites-staged-revision.php:235-239 | Arming appends exactly one event for the revision and changes no other revision's events |
| Scheduler.ClearTimersIdempotent | includes/class-rewrites-staged-revision.php:228-229 | Clearing twice is the same as clearing once |
| Queries.Filter | includes/class-rewrites-staged-revision.php:374-381 | A row is kept iff it satisfies the condition, and the result is no longer than the input |
| Queries.FilterCount | includes/class-rewrites-staged-revision.php:374-381 | Filtering keeps each satisfying row as many times as it occurred and drops the others |
| Queries.SortNewest | includes/class-rewrites-staged-revision.php:382 | The result is ordered newest first (ID breaking ties) and holds exactly the input rows |
| Queries.SortNewestPermutes | includes/class-rewrites-staged-revision.php:382 | Sorting is a permutation: the multiset of rows is unchanged |
| Queries.Page | includes/class-rewrites-staged-revision.php:383-385 | `LIMIT n OFFSET k` returns the rows from position k on, at most n of them, each equal to the row at its shifted position |
| StagedRevision.GetById | includes/class-rewrites-staged-revision.php:148-160 | A row comes back iff the ID exists, has type revision and carries a truthy marker |
| StagedRevision.Revisions | includes/class-rewrites-staged-revision.php:125-131 | The parent's history is exactly its inherit-status revisions, newest first, and empty when the parent does not exist |
| StagedRevision.FirstMarked | includes/class-rewrites-staged-revision.php:133-139 | None iff no row is marked (`ReadMarker`: the `_staged_revision` value is truthy); otherwise the first marked row in input order, with every earlier row unmarked, and on a sorted input it precedes every other marked row |
| StagedRevision.Get | includes/class-rewrites-staged-revision.php:124-140 | None iff the parent is missing or none of its revisions is marked; otherwise the newest marked revision of that parent |
| StagedRevision.Create | includes/class-rewrites-staged-revision.php:60-116 | Error codes and an untouched store for a missing or unpublished post or a failed write; on success it reuses the ID `get` finds or the next fresh one, writes the row from the request with omitted fields from the live post, stamps marker "1", status "pending" and author (1 for user 0), changes notes only when given, keeps date and events, and points the parent at the ID |
| StagedRevision.Stage | includes/class-rewrites-staged-revision.php:101-113 | The store write of a create changes only that row, its meta, the parent's pointer and the counter, and keeps the host's table guarantees |
| StagedRevision.Publish | includes/class-rewrites-staged-revision.php:168-206 | invalid_revision for an unstaged ID and restore_failed when the restore fails, both leaving the store as it was; on success the parent takes the revision's title, content and excerpt, all five keys, the pointer and the events go, one event is logged, the ID counter is untouched and the result is the parent ID |
| StagedRevision.Schedule | includes/class-rewrites-staged-revision.php:215-246 | invalid_revision, then invalid_date for an unparseable, zero or past date (`InFuture` fails) with no change; otherwise old events are cleared, the date is stored and one event armed, and a refused event gives schedule_failed with the date kept and old events gone; posts, pointers, log and the ID counter are untouched; status is never read |
| StagedRevision.Discard | includes/class-rewrites-staged-revision.php:254-281 | invalid_revision for an unstaged ID; otherwise success whatever the deletion did: the events and the parent's pointer are removed, the revision row and its meta are removed when the host's deletion succeeds and kept when it fails, and nothing else changes, the ID counter included |
| StagedRevision.Approve | includes/class-rewrites-staged-revision.php:289-307 | invalid_revision for an unstaged ID; otherwise only the status changes, to "approved" (posts, pointers, events and the ID counter are untouched), and the approval is logged |
| StagedRevision.Reject | includes/class-rewrites-staged-revision.php:315-337 | invalid_revision for an unstaged ID; otherwise status "rejected", the stored date and the revision's events are removed, and nothing else changes, the ID counter included |
| StagedRevision.Listing | includes/class-rewrites-staged-revision.php:356-382 | The listing holds exactly the revisions whose parent exists, whose marker is exactly "1" and whose status equals the filter if one is given (`StatusFilter`: an empty or "0" status means none), most recently modified first |
| StagedRevision.ListingOnce | includes/class-rewrites-staged-revision.php:374-382 | No listed revision appears twice |
| StagedRevision.Offset | includes/class-rewrites-staged-revision.php:363 | The offset is (page - 1) * per_page |
| StagedRevision.SummarizeAll | includes/class-rewrites-staged-revision.php:367-380 | Each row is joined with its parent's title and type and with its own workflow meta, one summary per row |
| StagedRevision.PageSummaries | includes/class-rewrites-staged-revision.php:383-385 | The summaries are those of the LIMIT/OFFSET slice of the rows, in order |
| StagedRevision.GetAll | includes/class-rewrites-staged-revision.php:345-391 | At most per_page rows (default 20), the slice starting at (page - 1) * per_page (page default 1) of the listing |
| StagedRevision.PageSummariesRows | includes/class-rewrites-staged-revision.php:356-382 | Any slice of an ordered listing keeps the marker, parent, status and modified-descending guarantees |
| StagedRevision.GetAllRows | includes/class-rewrites-staged-revision.php:345-391 | Every row returned is a revision marked "1" with an existing parent, carries the requested status when one is given, and rows come most recently modified first |
| StagedRevision.FormatForResponse | includes/class-rewrites-staged-revision.php:399-413 | The status read with its registered default (`ReadStatus`) is reported when truthy and "pending" otherwise, so the reported status is never empty; ID, parent, title, content, excerpt and modified time come from the revision, and author, notes and scheduled date from its meta with their registered defaults |
| CronHandler.HandleScheduledPublish | includes/class-cron-handler.php:43-88 | A missing, unmarked or rejected revision, or a failed publish, leaves the store unchanged; a success publishes and logs the published and then the completed event |
| CronHandler.HandlerIsGuardedPublish | includes/class-cron-handler.php:43-88 | The handler either changes nothing or does exactly what one publish does, plus the completion event |
| CronHandler.RejectedNeverPublishes | includes/class-cron-handler.php:58-63 | After reject, the event firing changes nothing, whether or not the host's restore would succeed |
| Workflow.OneStagedPerParent | includes/class-rewrites-staged-revision.php:71-113 | Under the pointer invariant, a parent never has two staged revisions |
| Workflow.GetFollowsPointer | includes/class-rewrites-staged-revision.php:113-140 | Under the invariant, `get` finds a revision iff the parent has a pointer, and finds the one it names |
| Workflow.CreateFollowsPointer | includes/class-rewrites-staged-revision.php:71-95 | Create updates the revision the parent's pointer designates, or inserts a fresh ID when there is none |
| Workflow.StageKeepsConsistent | includes/class-rewrites-staged-revision.php:101-113 | The write create performs keeps the pointers and marked revisions in agreement |
| Workflow.CreateIsStage | includes/class-rewrites-staged-revision.php:75-113 | A successful create is such a write of a marked revision of the post |
| Workflow.CreateKeepsConsistent | includes/class-rewrites-staged-revision.php:60-116 | Create preserves the invariant |
| Workflow.PublishKeepsConsistent | includes/class-rewrites-staged-revision.php:168-206 | Publish preserves the invariant |
| Workflow.PublishTouchesOnlyItsRevision | includes/class-rewrites-staged-revision.php:180-196 | A successful publish keeps the host's table guarantees, every other revision's header and every other pointer, and leaves its own revision staged for no parent |
| Workflow.DiscardKeepsConsistent | includes/class-rewrites-staged-revision.php:254-281 | Discard with a successful deletion preserves the invariant |
| Workflow.FailedDeleteLeavesStaged | includes/class-rewrites-staged-revision.php:264-280 | Discard with a failed deletion still succeeds and clears the pointer, but the revision stays marked and `get` still finds it, so the pointer no longer agrees |
| Workflow.GetSeesSameMarks | includes/class-rewrites-staged-revision.php:124-140 | On a store with the same posts and meta, `get` finds the one staged revision the invariant allows |
| Workflow.ApproveKeepsConsistent | includes/class-rewrites-staged-revision.php:289-307 | Approve preserves the invariant |
| Workflow.RejectKeepsConsistent | includes/class-rewrites-staged-revision.php:315-337 | Reject preserves the invariant |
| Workflow.ScheduleKeepsConsistent | includes/class-rewrites-staged-revision.php:215-246 | Schedule preserves the invariant |
| Workflow.HandlerKeepsConsistent | includes/class-cron-handler.php:43-88 | The scheduled-publish handler preserves the invariant |
| Scenarios.LookupsAgree | includes/class-rewrites-staged-revision.php:124-160 | In a consistent store, `get` and `get_by_id` agree on a parent's staged revision |
| Scenarios.CreateTwiceUpdatesInPlace | includes/class-rewrites-staged-revision.php:72-105 | A second create returns the same ID, uses no new ID, leaves exactly one staged revision, resets status to "pending", and fills an omitted title, content or excerpt from the live post, not from the first request |
| Scenarios.PublishTwiceRefused | includes/class-rewrites-staged-revision.php:168-192 | A second publish of the same revision fails with invalid_revision and changes nothing |
| Scenarios.ScheduleTwiceReplaces | includes/class-rewrites-staged-revision.php:228-239 | Scheduling again leaves exactly one event, at the later date, and stores that date |
| Scenarios.RejectCancelsSchedule | includes/class-rewrites-staged-revision.php:322-326 | Rejecting a scheduled revision leaves no event and no date, and a late firing changes nothing |
| Scenarios.StatusGatesOnlyTheHandler | includes/class-cron-handler.php:58-66 | A rejected revision can still be scheduled and published by hand; only the handler refuses it |
| Scenarios.DiscardLeavesNothingStaged | includes/class-rewrites-staged-revision.php:254-281 | After discard, neither lookup finds a staged revision for the parent and its pointer is gone |
| Scenarios.CreateTargetsRevision | includes/class-rewrites-staged-revision.php:88-94 | Create never writes over the post itself |
| Scenarios.CreatedRevision | includes/class-rewrites-staged-revision.php:75-105 | After create the post is untouched and the returned ID holds the new row with marker "1", status "pending" and the author |
| Scenarios.CreatedRevisionIsStaged | includes/class-rewrites-staged-revision.php:101-105 | A freshly created revision is found by ID, protected by the revision filter, and reported as pending by its author |
| Scenarios.StagedResponse | includes/class-rewrites-staged-revision.php:399-413 | A staged revision is found by ID and protected; its response carries its stored status when truthy ("pending" otherwise), its author and its parent |
| Scenarios.ApproveThenPublish | includes/class-rewrites-staged-revision.php:168-206 | Approve then publish puts the revision's text on the parent and leaves nothing staged |
| Scenarios.StageApprovePublish | includes/class-rewrites-staged-revision.php:60-206 | Create, approve and publish put the requested title, content and excerpt (or the live ones when omitted) on the post, as the host stores them under the identity save filters taken here, and leave nothing staged |
| Scenarios.ResponseFollowsReview | includes/class-rewrites-staged-revision.php:289-413 | After approve the response differs from before only in status "approved"; after reject only in status "rejected" and no scheduled date |
| Settings.GetChecklistItems | admin/class-rewrites-settings.php:155-177 | The three defaults only when nothing is stored; a stored list, even an empty one, as stored |
| Settings.IsEnabled | admin/class-rewrites-settings.php:184-186 | On when never saved, otherwise the stored value's truthiness |
| Settings.SanitizeItem | admin/class-rewrites-settings.php:136-140 | An item is kept iff its sanitised label is non-empty; the label is sanitised again; required is true iff the submitted value is non-empty |
| Settings.SanitizeItems | admin/class-rewrites-settings.php:134-142 | Never more items than submitted, and every saved item comes from a submitted one |
| Settings.SanitizeItemsAppend | admin/class-rewrites-settings.php:134-142 | The loop works item by item and keeps the input order |
| Settings.UpdateEnabled | admin/class-rewrites-settings.php:144 | Saving false over a never-saved switch stores nothing; otherwise the stored value is truthy iff the saved boolean is true |
| Settings.SaveChecklist | admin/class-rewrites-settings.php:130-145 | The switch reads back on iff it was submitted truthy (false when absent) or had never been saved; the list is always saved, empty when absent |
| Settings.SwitchOffIgnoredWhenUnsaved | admin/class-rewrites-settings.php:144 | Switching the checklist off before it was ever saved leaves nothing stored, and it reads back on |
| Settings.SaveChecklistFixed | admin/class-rewrites-settings.php:130-145 | The corrected handler always stores the switch, and the list as `SaveChecklist` does |
| Settings.FixedSaveHonoursSwitch | admin/class-rewrites-settings.php:144-186 | With the corrected handler the switch reads back as submitted, whatever was stored before |
| Settings.Payload | assets/js/settings.js:72-86 | Nothing is posted iff every row's label is empty; every posted row has a label and a required value |
| Settings.FormRows | assets/js/settings.js:76-83 | Rows with empty labels are dropped; every remaining row carries its label and required value |
| Settings.SubmitAsWritten | assets/js/settings.js:99-107 | The form posts the switch as 1/0 (`EncodeEnabled`) and each required box as "true"/"false" (`EncodeRequired`); the switch reads back as submitted, except that switching off a never-saved switch reads back on |
| Settings.AsWrittenRowsRequired | assets/js/settings.js:78-81 | Under the form as written, every saved item comes back required |
| Settings.SubmitAsWrittenAllRequired | assets/js/settings.js:102-107 | The form as written can never save an optional item |
| Settings.UntickedItemSavedRequired | assets/js/settings.js:78-81 | The concrete case: an unticked "Links have been verified" is saved required |
| Settings.Submit | assets/js/settings.js:102-107 | With the corrected encoding and handler the enabled switch survives the round trip from any previous options |
| Settings.FixedRowsRoundTrip | admin/class-rewrites-settings.php:134-142 | With the corrected encoding, sanitising the posted rows gives back the form's items exactly |
| Settings.SubmitRoundTrip | admin/class-rewrites-settings.php:130-177 | What the corrected form saves is what `get_checklist_items` and `is_enabled` read back, whatever was stored before |
| Settings.EmptyChecklistStaysEmpty | admin/class-rewrites-settings.php:155-177 | Saving no items, through either handler, stores an empty list, which does not bring the defaults back |

Four behaviours of the code that a reader might not expect are modelled as
written:

- `create` puts the status back to "pending" even when it updates an
  existing staged revision (includes/class-rewrites-staged-revision.php:105).
- `schedule` never reads the status, so a rejected revision can be
  scheduled.
- `publish` accepts a rejected revision. Only the scheduled-publish
  handler refuses one.
- `discard` ignores the result of `wp_delete_post_revision`. When the
  deletion fails it still clears the pointer and reports success, and the
  revision stays staged.

## Left out

- The REST controller, the JavaScript editor and admin screens, the admin
  page rendering and the plugin bootstrap are not part of this model. They
  are routing, UI and loading glue.
- Nonce and capability checks in the AJAX and REST handlers are left out. The
  model starts after they pass.
- The host functions are left abstract:
  - `wp_restore_post_revision` is reduced to what the plugin relies on: it
    copies title, content and excerpt onto the parent and bumps its
    modified time. The host's update of the parent may also save a new,
    unmarked revision row (when it sees a change and revisions are enabled,
    possibly pruning old ones), holding the restored content under a fresh ID.
    `StagedRevision.Publish` leaves that row and the counter bump out; the
    row carries no workflow meta, so no staged-revision lookup sees it.
  - `update_option` is reduced to the one rule that changes what is stored:
    a value identical to the old one (false for an option never saved) is
    not written.
  - WP-Cron's runner, which pops an event before calling the handler, is
    not modelled. The handler is called directly.
- Dates are integers. `strtotime` parsing, `gmdate` and MySQL date
  formatting are not modelled.
- `sanitize_textarea_field` and `sanitize_text_field` are opaque functions.
  `wp_slash` is not modelled.
- Logging (`error_log` under WP_DEBUG) is a no-op. Action listeners are left
  out; the fired actions are recorded in the log.
- Concurrency is not modelled, including the check-then-insert race in
  `create` under parallel requests.
- The listing compares the status filter by exact string equality. MySQL's
  case-insensitive collation is not modelled.
- `get_all` orders rows with equal modified times by descending ID. The SQL
  leaves that order to the database.
- `get_all` takes page >= 1 and per_page >= 0 (`ValidQuery`). Its REST caller
  bounds them to page >= 1 and per_page 1-100; the function itself does not
  check them.
- `wp_get_post_revisions` is taken to order by date and then ID, newest
  first.
- StagedRevision.Create: the ID bounds and the "fresh ID is unused" promise
  hold only when the store meets the host's table guarantees (`Valid`). They
  are stated under that condition because an arbitrary store need not have an
  auto-increment counter above its IDs.
- StagedRevision.Create: its meta writes are taken to succeed. These are
  three `update_metadata` writes (`_staged_revision`, `_staged_author`,
  `_staged_status`), a fourth for `_staged_notes` when notes are given, and
  the `update_post_meta` write of the parent's pointer. The code ignores their results, and
  a failed marker write would leave an unmarked row that `get` cannot find.
- StagedRevision.Create: `wp_insert_post` and `wp_update_post` are taken
  to store title, content and excerpt exactly as passed. The host's
  save-time filters (`title_save_pre` trimming, kses for users without
  `unfiltered_html`, `convert_invalid_entities`) are taken as the identity.
- StagedRevision.Publish: the restore is likewise taken to store the
  revision's title, content and excerpt unchanged. The host's save-time
  filters are not modelled. On the scheduled path they run as user 0, so
  markup staged by an editor with `unfiltered_html` could be stripped when
  the post goes live.
- StagedRevision.Publish: the meta and pointer deletions after a successful
  restore are taken to succeed. The code ignores their results.
- The settings form trims labels before it posts them. The model takes the
  form's rows as already trimmed.
- A label "0" is posted by the form but dropped by the server, because PHP
  treats "0" as empty. The round trip is stated for labels PHP keeps
  (`KeptLabels`).
- The editor's "all required items checked" gate and its hiding of the
  publish button for rejected revisions are UI-only and are not engine rules.

## Findings

| source | as written | input that shows it | evidently intended | confidence | as-written member | corrected member |
|---|---|---|---|---|---|---|
| admin/class-rewrites-settings.php:144 | The switch is saved as the PHP boolean false. `update_option` reads a never-saved option as false and skips a write of an identical value, so nothing is stored, and `is_enabled` falls back to its default true | on a fresh install, untick "enabled" and save: the checklist stays on | store the switch as "1"/"0", as the form sends it, so that switching it off is always written | not executed | Settings.SwitchOffIgnoredWhenUnsaved | Settings.FixedSaveHonoursSwitch |
| assets/js/settings.js:78-81 | Each item's `required` is posted as a JavaScript boolean. The form encoding turns it into the string "false", and the server's `!empty()` reads "false" as true | one item "Links have been verified" with the required box unticked is saved with required true | send 1/0 as is done for `enabled`, so an unticked box is saved as not required | not executed | Settings.UntickedItemSavedRequired | Settings.SubmitRoundTrip |

=== FILE: cron_handler.dfy ===
/**
 * The handler of the one-shot `rewrites_publish_staged` event: it publishes
 * the revision the event carries unless that revision is gone, no longer
 * marked, or was rejected after being scheduled.
 */
module CronHandler {
  import opened Types
  import opened Rewrites
  import opened Scheduler
  import opened StagedRevision

  /**
   * `handle_scheduled_publish`: every refusal leaves the store as it was; a
   * successful publish additionally fires `rewrites_scheduled_publish_completed`.
   */
  function HandleScheduledPublish(s: Store, id: PostId, restoreOk: bool, now: int): (s': Store)
    ensures !IsStaged(s, id) ==> s' == s
    ensures IsStaged(s, id) && ReadStatus(MetaOf(s, id)) == "rejected" ==> s' == s
    ensures Publish(s, id, restoreOk, now).result.Err? ==> s' == s
    ensures IsStaged(s, id) && ReadStatus(MetaOf(s, id)) != "rejected" && restoreOk && s.posts[id].parent in s.posts ==>
      var parent := s.posts[id].parent;
      var rev := s.posts[id];
      && s'.log == s.log + [StagedPublished(parent, id), ScheduledPublishCompleted(parent, id)]
      && parent in s'.posts
      && s'.posts[parent] == s.posts[parent].(title := rev.title, content := rev.content, excerpt := rev.excerpt, modified := now)
      && MetaOf(s', id) == NoMeta
      && s'.pointers == s.pointers - {parent}
      && TimersFor(s'.timers, id) == []
      && !IsStaged(s', id)
  {
    match GetById(s, id)
    case None => s
    case Some(_) =>
      if !ReadMarker(MetaOf(s, id)) then s
      else if ReadStatus(MetaOf(s, id)) == "rejected" then s
      else
        var o := Publish(s, id, restoreOk, now);
        match o.result
        case Err(_) => o.store
        case Ok(parent) => o.store.(log := o.store.log + [ScheduledPublishCompleted(parent, id)])
  }

  /**
   * The handler only ever publishes: whatever it does to the store is what
   * `publish` does, plus the completion event.
   */
  lemma HandlerIsGuardedPublish(s: Store, id: PostId, restoreOk: bool, now: int)
    ensures var s' := HandleScheduledPublish(s, id, restoreOk, now);
            var o := Publish(s, id, restoreOk, now);
            || s' == s
            || (o.result.Ok? && s' == o.store.(log := o.store.log + [ScheduledPublishCompleted(o.result.value, id)]))
  {
  }

  /** Once a revision is rejected, its event firing changes nothing, whatever the host would do. */
  lemma RejectedNeverPublishes(s: Store, id: PostId, restoreOk: bool, now: int)
    requires IsStaged(s, id)
    ensures var s1 := Reject(s, id).store;
            HandleScheduledPublish(s1, id, restoreOk, now) == s1
  {
  }
}

=== FILE: queries.dfy ===
/**
 * The host's queries over the posts table, stated as sequence operations:
 * enumerating the rows, filtering them, ordering them newest first and
 * cutting out one page.
 */
module Queries {
  import opened Types

  /** A non-empty finite set of IDs has a least element. */
  lemma {:induction false} MinExists(ks: set<int>)
    requires ks != {}
    ensures exists m :: m in ks && forall k :: k in ks ==> m <= k
    decreases |ks|
  {
    if forall y :: y !in ks {
      assert false;
    }
    var x :| x in ks;
    var rest := ks - {x};
    if rest == {} {
      forall k | k in ks
        ensures x <= k
      {
        assert k !in rest;
      }
    } else {
      MinExists(rest);
      var m :| m in rest && forall k :: k in rest ==> m <= k;
      var least := if x < m then x else m;
      forall k | k in ks
        ensures least <= k
      {
        if k != x {
          assert k in rest;
        }
      }
      assert least in ks;
    }
  }

  /** The IDs of a set in ascending order, each once. */
  function AscendingIds(ks: set<int>): (r: seq<int>)
    ensures forall k :: k in r <==> k in ks
    ensures forall i, j :: 0 <= i < j < |r| ==> r[i] < r[j]
    decreases ks
  {
    if ks == {} then []
    else
      MinExists(ks);
      var m :| m in ks && forall k :: k in ks ==> m <= k;
      [m] + AscendingIds(ks - {m})
  }

  /** The rows for the given IDs, in the same order. */
  function EntriesOf(s: Store, ids: seq<PostId>): (r: seq<Entry>)
    requires forall i :: 0 <= i < |ids| ==> ids[i] in s.posts
    ensures |r| == |ids|
    ensures forall i :: 0 <= i < |r| ==> r[i] == Entry(ids[i], s.posts[ids[i]])
    ensures forall e :: e in r <==> e.id in ids && e.id in s.posts && e.post == s.posts[e.id]
  {
    if ids == [] then []
    else
      var rest := EntriesOf(s, ids[1..]);
      assert forall k :: k in ids <==> k == ids[0] || k in ids[1..];
      [Entry(ids[0], s.posts[ids[0]])] + rest
  }

  /** Every row of the posts table, in ascending ID order. */
  function Entries(s: Store): (r: seq<Entry>)
    ensures forall e :: e in r <==> e.id in s.posts && e.post == s.posts[e.id]
    ensures forall i, j :: 0 <= i < j < |r| ==> r[i].id < r[j].id
  {
    EntriesOf(s, AscendingIds(s.posts.Keys))
  }

  /** No row occurs twice in a sequence whose IDs strictly increase. */
  lemma {:induction false} AscendingOccursOnce(es: seq<Entry>, e: Entry)
    requires forall i, j :: 0 <= i < j < |es| ==> es[i].id < es[j].id
    ensures multiset(es)[e] == if e in es then 1 else 0
  {
    if es != [] {
      assert es == [es[0]] + es[1..];
      AscendingOccursOnce(es[1..], e);
      if e == es[0] {
        assert e !in es[1..];
      }
    }
  }

  /** Each row of the posts table occurs exactly once in `Entries`. */
  lemma EntriesOnce(s: Store, e: Entry)
    ensures multiset(Entries(s))[e] == if e.id in s.posts && e.post == s.posts[e.id] then 1 else 0
  {
    AscendingOccursOnce(Entries(s), e);
  }

  /** The rows satisfying `f`, in their original order. */
  function Filter(f: Entry -> bool, es: seq<Entry>): (r: seq<Entry>)
    ensures forall e :: e in r <==> e in es && f(e)
    ensures |r| <= |es|
  {
    if es == [] then []
    else
      assert forall e :: e in es <==> e == es[0] || e in es[1..];
      (if f(es[0]) then [es[0]] else []) + Filter(f, es[1..])
  }

  /** Filtering keeps each row satisfying `f` as often as it occurred and drops the rest. */
  lemma {:induction false} FilterCount(f: Entry -> bool, es: seq<Entry>, e: Entry)
    ensures multiset(Filter(f, es))[e] == if f(e) then multiset(es)[e] else 0
  {
    if es != [] {
      assert es == [es[0]] + es[1..];
      FilterCount(f, es[1..], e);
      var head := if f(es[0]) then [es[0]] else [];
      assert Filter(f, es) == head + Filter(f, es[1..]);
      assert multiset(Filter(f, es)) == multiset(head) + multiset(Filter(f, es[1..]));
    }
  }

  /** The two columns the host orders by, always with the ID as tie-break. */
  datatype SortKey = ByDate | ByModified

  function Key(k: SortKey, e: Entry): int {
    match k
    case ByDate => e.post.date
    case ByModified => e.post.modified
  }

  /** `ORDER BY key DESC, ID DESC`: `a` may come before `b`. */
  predicate Precedes(k: SortKey, a: Entry, b: Entry) {
    Key(k, a) > Key(k, b) || (Key(k, a) == Key(k, b) && a.id >= b.id)
  }

  predicate Sorted(k: SortKey, es: seq<Entry>) {
    forall i, j :: 0 <= i < j < |es| ==> Precedes(k, es[i], es[j])
  }

  /** Place `e` into an already ordered sequence. */
  function Insert(k: SortKey, e: Entry, es: seq<Entry>): (r: seq<Entry>)
    requires Sorted(k, es)
    ensures Sorted(k, r)
    ensures forall x :: x in r <==> x in es || x == e
    ensures |r| == |es| + 1
  {
    if es == [] then [e]
    else if Precedes(k, e, es[0]) then
      [e] + es
    else
      var rest := Insert(k, e, es[1..]);
      assert forall x :: x in es <==> x == es[0] || x in es[1..];
      assert forall j :: 0 <= j < |rest| ==> Precedes(k, es[0], rest[j]) by {
        forall j | 0 <= j < |rest|
          ensures Precedes(k, es[0], rest[j])
        {
          assert rest[j] in rest;
          if rest[j] != e {
            var i :| 0 <= i < |es[1..]| && es[1..][i] == rest[j];
            assert es[i + 1] == rest[j];
          }
        }
      }
      [es[0]] + rest
  }

  lemma {:induction false} InsertCount(k: SortKey, e: Entry, es: seq<Entry>)
    requires Sorted(k, es)
    ensures multiset(Insert(k, e, es)) == multiset(es) + multiset{e}
  {
    if es != [] && !Precedes(k, e, es[0]) {
      assert es == [es[0]] + es[1..];
      InsertCount(k, e, es[1..]);
    }
  }

  /** The rows ordered newest first. */
  function SortNewest(k: SortKey, es: seq<Entry>): (r: seq<Entry>)
    ensures Sorted(k, r)
    ensures forall x :: x in r <==> x in es
    ensures |r| == |es|
  {
    if es == [] then []
    else
      assert forall x :: x in es <==> x == es[0] || x in es[1..];
      Insert(k, es[0], SortNewest(k, es[1..]))
  }

  /** Sorting only reorders: it is a permutation of its input. */
  lemma {:induction false} SortNewestPermutes(k: SortKey, es: seq<Entry>)
    ensures multiset(SortNewest(k, es)) == multiset(es)
  {
    if es != [] {
      assert es == [es[0]] + es[1..];
      SortNewestPermutes(k, es[1..]);
      InsertCount(k, es[0], SortNewest(k, es[1..]));
    }
  }

  /** `LIMIT limit OFFSET offset`. */
  function Page<T>(xs: seq<T>, offset: nat, limit: nat): (r: seq<T>)
    ensures |r| == if offset >= |xs| then 0 else if limit < |xs| - offset then limit else |xs| - offset
    ensures forall i :: 0 <= i < |r| ==> r[i] == xs[offset + i]
  {
    if offset >= |xs| then []
    else if limit < |xs| - offset then xs[offset .. offset + limit]
    else xs[offset..]
  }
}

=== FILE: rewrites.dfy ===
/**
 * The core plugin class: the registered defaults of the revision meta keys
 * and the filter that protects staged revisions from the host's
 * "skip the snapshot if nothing changed" check.
 */
module Rewrites {
  import opened Types

  /** `_staged_revision` read as a boolean; a missing key reads as the registered default false. */
  predicate ReadMarker(m: Meta) {
    m.staged.Some? && Truthy(m.staged.value)
  }

  /** `_staged_status`; a missing key reads as the registered default "pending". */
  function ReadStatus(m: Meta): string {
    m.status.GetOr("pending")
  }

  /** `_staged_author`; a missing key reads as the registered default 0. */
  function ReadAuthor(m: Meta): int {
    m.author.GetOr(0)
  }

  /** `_staged_notes`; a missing key reads as the registered default "". */
  function ReadNotes(m: Meta): string {
    m.notes.GetOr("")
  }

  /** A revision with no workflow keys stored is an ordinary, pending, unmarked one. */
  lemma AbsentMetaDefaults()
    ensures ReadStatus(NoMeta) == "pending"
    ensures !ReadMarker(NoMeta)
    ensures ReadAuthor(NoMeta) == 0
    ensures ReadNotes(NoMeta) == ""
  {
  }

  /**
   * The `wp_save_post_revision_post_has_changed` filter: whatever the host
   * decided, a post whose latest revision is staged counts as changed, so the
   * host records a fresh snapshot instead of reusing the staged one.
   */
  function ProtectStagedRevisions(s: Store, postHasChanged: bool, lastRevision: Entry, post: Post): (changed: bool)
    ensures ReadMarker(MetaOf(s, lastRevision.id)) ==> changed
    ensures !ReadMarker(MetaOf(s, lastRevision.id)) ==> changed == postHasChanged
    ensures postHasChanged ==> changed
  {
    if ReadMarker(MetaOf(s, lastRevision.id)) then true else postHasChanged
  }

  /**
   * The filter reads nothing but the last revision's marker: stores that
   * agree on that one key, and any two posts, give the same verdict.
   */
  lemma ProtectReadsOnlyMarker(s1: Store, s2: Store, changed: bool, last1: Entry, last2: Entry, p1: Post, p2: Post)
    requires ReadMarker(MetaOf(s1, last1.id)) == ReadMarker(MetaOf(s2, last2.id))
    ensures ProtectStagedRevisions(s1, changed, last1, p1) == ProtectStagedRevisions(s2, changed, last2, p2)
  {
  }
}

=== FILE: scenarios.dfy ===
/**
 * Sequences of workflow operations and what they promise: repeated calls,
 * the interplay of scheduling with rejection, and the two lookups agreeing.
 */
module Scenarios {
  import opened Types
  import opened Rewrites
  import opened Scheduler
  import opened StagedRevision
  import opened CronHandler
  import opened Workflow

  /** In a consistent store the two lookups agree on the staged revision of a parent. */
  lemma LookupsAgree(s: Store, p: PostId, e: Entry)
    requires Consistent(s)
    ensures Get(s, p) == Some(e) ==> GetById(s, e.id) == Some(e)
    ensures p in s.posts && GetById(s, e.id) == Some(e) && InHistory(p, e) ==> Get(s, p) == Some(e)
  {
    if p in s.posts {
      GetFollowsPointer(s, p);
      if GetById(s, e.id) == Some(e) && InHistory(p, e) {
        assert StagedFor(s, p, e.id);
      }
    }
  }

  /**
   * Creating twice for the same post updates one revision in place: the same
   * ID comes back, no new ID is used, the post keeps exactly one staged
   * revision, the update puts the status back to "pending", and a field the
   * second request omits is taken from the live post, not from the first
   * request.
   */
  lemma CreateTwiceUpdatesInPlace(s: Store, postId: PostId, d1: PostData, d2: PostData, n1: Option<string>, n2: Option<string>,
                                  userId: int, now1: int, now2: int, sanitize: string -> string)
    requires Consistent(s) && postId in s.posts && s.posts[postId].status == PublishStatus
    ensures var o1 := Create(s, postId, d1, n1, userId, now1, true, sanitize);
            var o2 := Create(o1.store, postId, d2, n2, userId, now2, true, sanitize);
            && o1.result.Ok?
            && o2.result == o1.result
            && o2.store.nextId == o1.store.nextId
            && o2.result.value in o2.store.posts
            && ReadStatus(MetaOf(o2.store, o2.result.value)) == "pending"
            && Consistent(o2.store)
            && (forall id :: StagedFor(o2.store, postId, id) ==> id == o1.result.value)
            && (d2.title.None? ==> o2.store.posts[o2.result.value].title == s.posts[postId].title)
            && (d2.content.None? ==> o2.store.posts[o2.result.value].content == s.posts[postId].content)
            && (d2.excerpt.None? ==> o2.store.posts[o2.result.value].excerpt == s.posts[postId].excerpt)
  {
    var o1 := Create(s, postId, d1, n1, userId, now1, true, sanitize);
    CreatedRevision(s, postId, d1, n1, userId, now1, sanitize);
    CreateKeepsConsistent(s, postId, d1, n1, userId, now1, true, sanitize);
    GetFollowsPointer(o1.store, postId);
    CreateFollowsPointer(o1.store, postId, d2, n2, userId, now2, true, sanitize);
    CreateKeepsConsistent(o1.store, postId, d2, n2, userId, now2, true, sanitize);
  }

  /** Publishing consumes the staged revision: a second publish is refused and changes nothing. */
  lemma PublishTwiceRefused(s: Store, id: PostId, now1: int, now2: int, restoreOk: bool)
    requires Publish(s, id, true, now1).result.Ok?
    ensures var s1 := Publish(s, id, true, now1).store;
            Publish(s1, id, restoreOk, now2) == Outcome(Err(InvalidRevision), s1)
  {
  }

  /** Scheduling again replaces the pending event instead of adding one, and the later date is kept. */
  lemma ScheduleTwiceReplaces(s: Store, id: PostId, t1: int, t2: int, now: int)
    requires IsStaged(s, id) && InFuture(Some(t1), now) && InFuture(Some(t2), now)
    ensures var s1 := Schedule(s, id, Some(t1), now, true).store;
            var s2 := Schedule(s1, id, Some(t2), now, true).store;
            && TimersFor(s2.timers, id) == [Timer(id, t2)]
            && MetaOf(s2, id).publishDate == Some(t2)
            && (forall j :: j != id ==> TimersFor(s2.timers, j) == TimersFor(s.timers, j))
  {
  }

  /**
   * Rejecting a scheduled revision disarms its event and forgets the date,
   * and should the event fire anyway the handler changes nothing.
   */
  lemma RejectCancelsSchedule(s: Store, id: PostId, t: int, now: int, later: int, restoreOk: bool)
    requires IsStaged(s, id) && InFuture(Some(t), now)
    ensures var s1 := Schedule(s, id, Some(t), now, true).store;
            var s2 := Reject(s1, id).store;
            && TimersFor(s2.timers, id) == []
            && MetaOf(s2, id).publishDate.None?
            && HandleScheduledPublish(s2, id, restoreOk, later) == s2
  {
  }

  /**
   * The workflow status does not gate scheduling or manual publishing: a
   * rejected revision can be scheduled again and published by hand; only
   * the timer's handler refuses it.
   */
  lemma StatusGatesOnlyTheHandler(s: Store, id: PostId, t: int, now: int)
    requires IsStaged(s, id) && ReadStatus(MetaOf(s, id)) == "rejected"
    requires InFuture(Some(t), now) && s.posts[id].parent in s.posts
    ensures Schedule(s, id, Some(t), now, true).result.Ok?
    ensures Publish(s, id, true, now).result.Ok?
    ensures HandleScheduledPublish(Schedule(s, id, Some(t), now, true).store, id, true, t) == Schedule(s, id, Some(t), now, true).store
  {
  }

  /** Discarding leaves the parent with no staged revision, by either lookup. */
  lemma DiscardLeavesNothingStaged(s: Store, id: PostId)
    requires Consistent(s) && IsStaged(s, id)
    ensures var parent := s.posts[id].parent;
            var s1 := Discard(s, id, true).store;
            && GetById(s1, id).None?
            && parent !in s1.pointers
            && (parent in s1.posts ==> Get(s1, parent).None?)
  {
    var parent := s.posts[id].parent;
    var s1 := Discard(s, id, true).store;
    DiscardKeepsConsistent(s, id);
    if parent in s1.posts {
      GetFollowsPointer(s1, parent);
    }
  }

  /** The revision `create` writes is never the post itself. */
  lemma CreateTargetsRevision(s: Store, postId: PostId, data: PostData, notes: Option<string>,
                              userId: int, now: int, sanitize: string -> string)
    requires Valid(s) && postId in s.posts && s.posts[postId].status == PublishStatus
    ensures var o := Create(s, postId, data, notes, userId, now, true, sanitize);
            o.result.Ok? && o.result.value != postId
  {
    var g := Get(s, postId);
    if g.Some? {
      assert s.posts[g.value.id].status == InheritStatus;
    }
  }

  /**
   * `rid` holds `row` and the workflow keys of a new submission (marker "1",
   * status "pending", the given author), and the post itself is untouched.
   */
  ghost predicate FreshlyStaged(s: Store, s': Store, postId: PostId, rid: PostId, row: Post, userId: int) {
    && rid != postId && postId in s.posts && postId in s'.posts
    && s'.posts[postId] == s.posts[postId]
    && rid in s'.posts && s'.posts[rid] == row
    && MetaOf(s', rid).staged == Some("1")
    && MetaOf(s', rid).status == Some("pending")
    && MetaOf(s', rid).author == Some(StagedAuthor(userId))
  }

  /** What a successful `create` leaves: a marked revision of the post, written from the request and the live post. */
  lemma CreatedRevision(s: Store, postId: PostId, data: PostData, notes: Option<string>,
                        userId: int, now: int, sanitize: string -> string)
    requires Valid(s) && postId in s.posts && s.posts[postId].status == PublishStatus
    ensures var o := Create(s, postId, data, notes, userId, now, true, sanitize);
            && o.result.Ok?
            && FreshlyStaged(s, o.store, postId, o.result.value, RevisionRow(s.posts[postId], postId, data, userId, now), userId)
  {
    CreateTargetsRevision(s, postId, data, notes, userId, now, sanitize);
  }

  /** How the workflow keys `create` stamps read back. */
  lemma StagedMetaReads(m: Meta, author: int)
    requires m.staged == Some("1") && m.status == Some("pending") && m.author == Some(author)
    ensures ReadMarker(m) && ReadStatus(m) == "pending" && ReadAuthor(m) == author
  {
  }

  /**
   * A freshly created staged revision is protected from the host's
   * unchanged-content check, and is reported as pending by its author.
   */
  lemma CreatedRevisionIsStaged(s: Store, postId: PostId, data: PostData, notes: Option<string>,
                                userId: int, now: int, sanitize: string -> string, hostSaysChanged: bool, post: Post)
    requires Valid(s) && postId in s.posts && s.posts[postId].status == PublishStatus
    ensures var o := Create(s, postId, data, notes, userId, now, true, sanitize);
            var rid := o.result.value;
            && o.result.Ok?
            && rid in o.store.posts
            && GetById(o.store, rid) == Some(Entry(rid, o.store.posts[rid]))
            && ProtectStagedRevisions(o.store, hostSaysChanged, Entry(rid, o.store.posts[rid]), post)
            && FormatForResponse(o.store, Entry(rid, o.store.posts[rid])).status == "pending"
            && FormatForResponse(o.store, Entry(rid, o.store.posts[rid])).author == StagedAuthor(userId)
            && FormatForResponse(o.store, Entry(rid, o.store.posts[rid])).postId == postId
  {
    var o := Create(s, postId, data, notes, userId, now, true, sanitize);
    CreatedRevision(s, postId, data, notes, userId, now, sanitize);
    var rid := o.result.value;
    StagedMetaReads(MetaOf(o.store, rid), StagedAuthor(userId));
    StagedResponse(o.store, rid, hostSaysChanged, post);
  }

  /**
   * A staged revision is protected, found by ID, and reported with its stored
   * status (pending when none is stored or it is falsy) and author.
   */
  lemma StagedResponse(s: Store, rid: PostId, hostSaysChanged: bool, post: Post)
    requires IsStaged(s, rid)
    ensures GetById(s, rid) == Some(Entry(rid, s.posts[rid]))
    ensures ProtectStagedRevisions(s, hostSaysChanged, Entry(rid, s.posts[rid]), post)
    ensures Truthy(ReadStatus(MetaOf(s, rid))) ==> FormatForResponse(s, Entry(rid, s.posts[rid])).status == ReadStatus(MetaOf(s, rid))
    ensures !Truthy(ReadStatus(MetaOf(s, rid))) ==> FormatForResponse(s, Entry(rid, s.posts[rid])).status == "pending"
    ensures FormatForResponse(s, Entry(rid, s.posts[rid])).author == ReadAuthor(MetaOf(s, rid))
    ensures FormatForResponse(s, Entry(rid, s.posts[rid])).postId == s.posts[rid].parent
  {
  }

  /**
   * The response follows the workflow: after approve a staged revision is
   * reported approved, after reject it is reported rejected with no
   * scheduled date, and the rest of the response is as before.
   */
  lemma ResponseFollowsReview(s: Store, id: PostId)
    requires IsStaged(s, id)
    ensures var before := FormatForResponse(s, Entry(id, s.posts[id]));
            var approved := FormatForResponse(Approve(s, id).store, Entry(id, s.posts[id]));
            var rejected := FormatForResponse(Reject(s, id).store, Entry(id, s.posts[id]));
            && approved == before.(status := "approved")
            && rejected == before.(status := "rejected", scheduledDate := None)
  {
  }

  /** Approving and then publishing a staged revision of an existing parent moves its text onto the parent. */
  lemma ApproveThenPublish(s: Store, rid: PostId, later: int)
    requires Consistent(s) && IsStaged(s, rid) && s.posts[rid].parent in s.posts
    ensures var parent := s.posts[rid].parent;
            var s2 := Approve(s, rid).store;
            var o3 := Publish(s2, rid, true, later);
            && o3.result == Ok(parent)
            && parent in o3.store.posts
            && o3.store.posts[parent] == s.posts[parent].(title := s.posts[rid].title, content := s.posts[rid].content,
                                                           excerpt := s.posts[rid].excerpt, modified := later)
            && GetById(o3.store, rid).None?
            && Get(o3.store, parent).None?
  {
    var parent := s.posts[rid].parent;
    ApproveKeepsConsistent(s, rid);
    var s2 := Approve(s, rid).store;
    PublishKeepsConsistent(s2, rid, true, later);
    GetFollowsPointer(Publish(s2, rid, true, later).store, parent);
  }

  /**
   * Staging an edit, approving it and publishing it puts the edited title,
   * content and excerpt on the live post and leaves nothing staged.
   */
  lemma StageApprovePublish(s: Store, postId: PostId, data: PostData, notes: Option<string>,
                            userId: int, now: int, later: int, sanitize: string -> string)
    requires Consistent(s) && postId in s.posts && s.posts[postId].status == PublishStatus
    ensures var o := Create(s, postId, data, notes, userId, now, true, sanitize);
            var rid := o.result.value;
            var s2 := Approve(o.store, rid).store;
            var o3 := Publish(s2, rid, true, later);
            && o.result.Ok?
            && o3.result == Ok(postId)
            && postId in o3.store.posts
            && o3.store.posts[postId].title == data.title.GetOr(s.posts[postId].title)
            && o3.store.posts[postId].content == data.content.GetOr(s.posts[postId].content)
            && o3.store.posts[postId].excerpt == data.excerpt.GetOr(s.posts[postId].excerpt)
            && GetById(o3.store, rid).None?
            && Get(o3.store, postId).None?
  {
    var o := Create(s, postId, data, notes, userId, now, true, sanitize);
    CreatedRevision(s, postId, data, notes, userId, now, sanitize);
    StagedMetaReads(MetaOf(o.store, o.result.value), StagedAuthor(userId));
    CreateKeepsConsistent(s, postId, data, notes, userId, now, true, sanitize);
    ApproveThenPublish(o.store, o.result.value, later);
  }
}

=== FILE: scheduler.dfy ===
/**
 * The host's one-shot event scheduler, restricted to the
 * `rewrites_publish_staged` hook: the armed events are a sequence of timers,
 * each carrying one revision ID.
 */
module Scheduler {
  import opened Types

  /** The timers armed for revision `id`, in scheduling order. */
  function TimersFor(ts: seq<Timer>, id: PostId): (r: seq<Timer>)
    ensures forall t :: t in r <==> t in ts && t.revision == id
    ensures |r| <= |ts|
  {
    if ts == [] then []
    else (if ts[0].revision == id then [ts[0]] else []) + TimersFor(ts[1..], id)
  }

  /**
   * `wp_clear_scheduled_hook` with argument `id`: every event carrying `id`
   * is unscheduled, every other event stays in place; clearing when nothing
   * is armed is a no-op, not an error.
   */
  function ClearTimers(ts: seq<Timer>, id: PostId): (r: seq<Timer>)
    ensures forall t :: t in r <==> t in ts && t.revision != id
    ensures TimersFor(r, id) == []
    ensures forall j :: j != id ==> TimersFor(r, j) == TimersFor(ts, j)
    ensures TimersFor(ts, id) == [] ==> r == ts
  {
    if ts == [] then []
    else if ts[0].revision == id then ClearTimers(ts[1..], id)
    else [ts[0]] + ClearTimers(ts[1..], id)
  }

  /** `wp_schedule_single_event` when the host accepts the event. */
  function Arm(ts: seq<Timer>, id: PostId, at: int): (r: seq<Timer>)
    ensures TimersFor(r, id) == TimersFor(ts, id) + [Timer(id, at)]
    ensures forall j :: j != id ==> TimersFor(r, j) == TimersFor(ts, j)
  {
    TimersForAppend(ts, [Timer(id, at)]);
    ts + [Timer(id, at)]
  }

  lemma {:induction false} TimersForAppend(a: seq<Timer>, b: seq<Timer>)
    ensures forall id :: TimersFor(a + b, id) == TimersFor(a, id) + TimersFor(b, id)
  {
    if a == [] {
      assert a + b == b;
    } else {
      assert (a + b)[1..] == a[1..] + b;
      TimersForAppend(a[1..], b);
    }
  }

  /** Disarming twice is the same as disarming once. */
  lemma ClearTimersIdempotent(ts: seq<Timer>, id: PostId)
    ensures ClearTimers(ClearTimers(ts, id), id) == ClearTimers(ts, id)
  {
  }
}

=== FILE: settings.dfy ===
/**
 * The pre-publish checklist settings: the two stored options, the AJAX save
 * handler that sanitises the submitted items, the readers with their
 * defaults, and the settings page's form encoding of the items it submits.
 */
module Settings {
  import opened Types

  /** One checklist entry as stored and as the settings form edits it. */
  datatype ChecklistItem = ChecklistItem(text: string, mandatory: bool)  // the stored `label` and `required` keys

  /** One element of the posted `items` array; a missing slot is None. */
  datatype SubmittedItem = SubmittedItem(text: Option<string>, mandatory: Option<string>)

  /**
   * The two stored options, `rewrites_checklist_enabled` and
   * `rewrites_checklist_items`; None when the option was never saved.
   */
  datatype Options = Options(enabled: Option<string>, checklist: Option<seq<ChecklistItem>>)

  /** How the host stores a PHP boolean option value. */
  function StoredBool(b: bool): string {
    if b then "1" else ""
  }

  /** The checklist offered before any is saved. */
  const DefaultChecklist := [
    ChecklistItem("I have reviewed all changes", true),
    ChecklistItem("Content has been proofread for errors", true),
    ChecklistItem("Links have been verified", false)
  ]

  /** `get_checklist_items`: the stored list, even an empty one; the defaults only when nothing is stored. */
  function GetChecklistItems(o: Options): (r: seq<ChecklistItem>)
    ensures o.checklist.None? ==> r == DefaultChecklist && |r| == 3
    ensures o.checklist.Some? ==> r == o.checklist.value
  {
    match o.checklist
    case None => DefaultChecklist
    case Some(items) => items
  }

  /** `is_enabled`: the checklist is on unless an off value was saved. */
  function IsEnabled(o: Options): (r: bool)
    ensures o.enabled.None? ==> r
    ensures o.enabled.Some? ==> (r <==> Truthy(o.enabled.value))
  {
    match o.enabled
    case None => true
    case Some(v) => Truthy(v)
  }

  /**
   * One submitted item after `map_deep` has applied `sanitize` to its slots:
   * kept only when its label is non-empty, the label sanitised once more,
   * `required` read with `!empty()`.
   */
  function SanitizeItem(item: SubmittedItem, sanitize: string -> string): (r: Option<ChecklistItem>)
    ensures r.Some? <==> item.text.Some? && Truthy(sanitize(item.text.value))
    ensures r.Some? ==> r.value.text == sanitize(sanitize(item.text.value))
    ensures r.Some? ==> (r.value.mandatory <==> item.mandatory.Some? && Truthy(sanitize(item.mandatory.value)))
  {
    var text := if item.text.Some? then Some(sanitize(item.text.value)) else None;
    var mandatory := if item.mandatory.Some? then Some(sanitize(item.mandatory.value)) else None;
    if Empty(text) then None
    else Some(ChecklistItem(sanitize(text.value), !Empty(mandatory)))
  }

  /** The loop over the submitted items, keeping their order. */
  function SanitizeItems(items: seq<SubmittedItem>, sanitize: string -> string): (r: seq<ChecklistItem>)
    ensures |r| <= |items|
    ensures forall x :: x in r ==> exists i :: 0 <= i < |items| && SanitizeItem(items[i], sanitize) == Some(x)
  {
    if items == [] then []
    else
      var head := SanitizeItem(items[0], sanitize);
      var rest := SanitizeItems(items[1..], sanitize);
      assert forall x :: x in rest ==> exists i :: 0 <= i < |items| && SanitizeItem(items[i], sanitize) == Some(x) by {
        forall x | x in rest
          ensures exists i :: 0 <= i < |items| && SanitizeItem(items[i], sanitize) == Some(x)
        {
          var i :| 0 <= i < |items[1..]| && SanitizeItem(items[1..][i], sanitize) == Some(x);
          assert items[i + 1] == items[1..][i];
        }
      }
      (if head.Some? then [head.value] else []) + rest
  }

  /** Sanitising a list item by item: concatenated submissions are sanitised piecewise. */
  lemma {:induction false} SanitizeItemsAppend(a: seq<SubmittedItem>, b: seq<SubmittedItem>, sanitize: string -> string)
    ensures SanitizeItems(a + b, sanitize) == SanitizeItems(a, sanitize) + SanitizeItems(b, sanitize)
  {
    if a == [] {
      assert a + b == b;
    } else {
      var head := SanitizeItem(a[0], sanitize);
      var h := if head.Some? then [head.value] else [];
      calc {
        SanitizeItems(a + b, sanitize);
        == { assert (a + b)[0] == a[0] && (a + b)[1..] == a[1..] + b; }
        h + SanitizeItems(a[1..] + b, sanitize);
        == { SanitizeItemsAppend(a[1..], b, sanitize); }
        h + (SanitizeItems(a[1..], sanitize) + SanitizeItems(b, sanitize));
        (h + SanitizeItems(a[1..], sanitize)) + SanitizeItems(b, sanitize);
      }
    }
  }

  /**
   * `update_option` of the enabled switch with the PHP boolean `b`. The host
   * first reads the old value, which is false for an option never saved,
   * and skips the write when the new value is identical to it: saving false
   * over a never-saved option stores nothing. Any stored value is a string,
   * never identical to a boolean, so otherwise the write happens.
   */
  function UpdateEnabled(prev: Option<string>, b: bool): (r: Option<string>)
    ensures r.None? <==> prev.None? && !b
    ensures r.Some? ==> (Truthy(r.value) <==> b)
  {
    if prev.None? && !b then None else Some(StoredBool(b))
  }

  /**
   * `ajax_save_checklist` after the nonce and capability checks, over the
   * options as they were: `enabled` is cast to a boolean (missing means
   * false), `items` is sanitised (missing means none), and both options are
   * updated. The list is always written, since an array is never identical
   * to the false an unsaved option reads as.
   */
  function SaveChecklist(prev: Options, enabled: Option<string>, items: Option<seq<SubmittedItem>>,
                         sanitize: string -> string): (o: Options)
    ensures IsEnabled(o) <==> (enabled.Some? && Truthy(enabled.value)) || prev.enabled.None?
    ensures o.enabled.None? <==> prev.enabled.None? && !(enabled.Some? && Truthy(enabled.value))
    ensures o.checklist.Some?
    ensures items.None? ==> o.checklist.value == []
    ensures items.Some? ==> o.checklist.value == SanitizeItems(items.value, sanitize)
  {
    Options(UpdateEnabled(prev.enabled, enabled.Some? && Truthy(enabled.value)),
            Some(if items.Some? then SanitizeItems(items.value, sanitize) else []))
  }

  /** Switching the checklist off on a site where it was never saved has no effect: it stays on. */
  lemma SwitchOffIgnoredWhenUnsaved(items: Option<seq<SubmittedItem>>, sanitize: string -> string)
    ensures var o := SaveChecklist(Options(None, None), Some("0"), items, sanitize);
            o.enabled.None? && IsEnabled(o)
  {
  }

  /**
   * The corrected handler stores the switch as the string "1" or "0", which
   * is never identical to the unsaved option's false, so it is always
   * written and read back as saved.
   */
  function SaveChecklistFixed(prev: Options, enabled: Option<string>, items: Option<seq<SubmittedItem>>,
                              sanitize: string -> string): (o: Options)
    ensures o.enabled.Some?
    ensures o.checklist.Some?
    ensures items.None? ==> o.checklist.value == []
    ensures items.Some? ==> o.checklist.value == SanitizeItems(items.value, sanitize)
  {
    Options(Some(EncodeEnabled(enabled.Some? && Truthy(enabled.value))),
            Some(if items.Some? then SanitizeItems(items.value, sanitize) else []))
  }

  /** With the corrected handler the switch reads back as submitted, whatever was stored before. */
  lemma FixedSaveHonoursSwitch(prev: Options, enabled: Option<string>, items: Option<seq<SubmittedItem>>,
                               sanitize: string -> string)
    ensures IsEnabled(SaveChecklistFixed(prev, enabled, items, sanitize)) <==> enabled.Some? && Truthy(enabled.value)
  {
  }

  /** The settings form sends the enabled box as 1 or 0. */
  function EncodeEnabled(b: bool): string {
    if b then "1" else "0"
  }

  /**
   * The settings form as written sends each item's `required` box as a
   * JavaScript boolean, which the form encoding turns into "true" or "false".
   */
  function EncodeRequired(b: bool): string {
    if b then "true" else "false"
  }

  /**
   * The `items` field the form posts: the rows with a non-empty label, each
   * encoded with `encode`; an empty list is not posted at all.
   */
  function Payload(items: seq<ChecklistItem>, encode: bool -> string): (r: Option<seq<SubmittedItem>>)
    ensures r.None? <==> forall i :: 0 <= i < |items| ==> items[i].text == ""
    ensures r.Some? ==> forall x :: x in r.value ==> x.text.Some? && x.text.value != "" && x.mandatory.Some?
  {
    var rows := FormRows(items, encode);
    if rows == [] then None else Some(rows)
  }

  function FormRows(items: seq<ChecklistItem>, encode: bool -> string): (r: seq<SubmittedItem>)
    ensures r == [] <==> forall i :: 0 <= i < |items| ==> items[i].text == ""
    ensures forall x :: x in r ==> x.text.Some? && x.text.value != "" && x.mandatory.Some?
  {
    if items == [] then []
    else
      var rest := FormRows(items[1..], encode);
      assert forall i :: 1 <= i < |items| ==> items[i] == items[1..][i - 1];
      if items[0].text == "" then rest
      else [SubmittedItem(Some(items[0].text), Some(encode(items[0].mandatory)))] + rest
  }

  /** What `sanitize_text_field` leaves alone among the values the form posts. */
  predicate KeepsFormValues(sanitize: string -> string, items: seq<ChecklistItem>) {
    && sanitize("true") == "true" && sanitize("false") == "false"
    && sanitize("1") == "1" && sanitize("0") == "0"
    && forall i :: 0 <= i < |items| ==> sanitize(items[i].text) == items[i].text
  }

  /**
   * Saving the form as written, over the options `prev`: every saved item
   * comes back required, whether its box was ticked or not, and switching
   * the checklist off is lost when the switch was never saved.
   */
  function SubmitAsWritten(prev: Options, enabled: bool, items: seq<ChecklistItem>, sanitize: string -> string): (o: Options)
    ensures IsEnabled(o) <==> enabled || prev.enabled.None?
  {
    SaveChecklist(prev, Some(EncodeEnabled(enabled)), Payload(items, EncodeRequired), sanitize)
  }

  lemma {:induction false} AsWrittenRowsRequired(items: seq<ChecklistItem>, sanitize: string -> string)
    requires KeepsFormValues(sanitize, items)
    ensures forall x :: x in SanitizeItems(FormRows(items, EncodeRequired), sanitize) ==> x.mandatory
  {
    if items != [] {
      assert KeepsFormValues(sanitize, items[1..]);
      AsWrittenRowsRequired(items[1..], sanitize);
      var rows := FormRows(items, EncodeRequired);
      var rest := FormRows(items[1..], EncodeRequired);
      if items[0].text != "" {
        var row := SubmittedItem(Some(items[0].text), Some(EncodeRequired(items[0].mandatory)));
        assert rows == [row] + rest;
        SanitizeItemsAppend([row], rest, sanitize);
        assert SanitizeItems([row], sanitize) == (if SanitizeItem(row, sanitize).Some? then [SanitizeItem(row, sanitize).value] else []) + SanitizeItems([], sanitize);
      }
    }
  }

  /** The as-written form never saves an optional item. */
  lemma SubmitAsWrittenAllRequired(prev: Options, enabled: bool, items: seq<ChecklistItem>, sanitize: string -> string)
    requires KeepsFormValues(sanitize, items)
    ensures forall x :: x in GetChecklistItems(SubmitAsWritten(prev, enabled, items, sanitize)) ==> x.mandatory
  {
    AsWrittenRowsRequired(items, sanitize);
  }

  /** A concrete case: an unticked "Links have been verified" is saved as required. */
  lemma UntickedItemSavedRequired()
    ensures var items := [ChecklistItem("Links have been verified", false)];
            GetChecklistItems(SubmitAsWritten(Options(None, None), true, items, (v: string) => v)) == [ChecklistItem("Links have been verified", true)]
  {
    var items := [ChecklistItem("Links have been verified", false)];
    var rows := FormRows(items, EncodeRequired);
    assert rows == [SubmittedItem(Some("Links have been verified"), Some("false"))] by {
      assert FormRows(items[1..], EncodeRequired) == [];
    }
    assert SanitizeItems(rows[1..], (v: string) => v) == [];
  }

  /** The corrected form sends the `required` box as 1 or 0, as it already does for `enabled`. */
  function EncodeRequiredFixed(b: bool): string {
    if b then "1" else "0"
  }

  /** Saving the corrected form through the corrected handler, over the options `prev`. */
  function Submit(prev: Options, enabled: bool, items: seq<ChecklistItem>, sanitize: string -> string): (o: Options)
    ensures IsEnabled(o) == enabled
  {
    SaveChecklistFixed(prev, Some(EncodeEnabled(enabled)), Payload(items, EncodeRequiredFixed), sanitize)
  }

  /** Labels the handler keeps: non-empty and not "0". */
  predicate KeptLabels(items: seq<ChecklistItem>) {
    forall i :: 0 <= i < |items| ==> Truthy(items[i].text)
  }

  lemma {:induction false} FixedRowsRoundTrip(items: seq<ChecklistItem>, sanitize: string -> string)
    requires KeepsFormValues(sanitize, items) && KeptLabels(items)
    ensures SanitizeItems(FormRows(items, EncodeRequiredFixed), sanitize) == items
  {
    if items != [] {
      assert KeepsFormValues(sanitize, items[1..]) && KeptLabels(items[1..]);
      FixedRowsRoundTrip(items[1..], sanitize);
      var row := SubmittedItem(Some(items[0].text), Some(EncodeRequiredFixed(items[0].mandatory)));
      var rest := FormRows(items[1..], EncodeRequiredFixed);
      assert FormRows(items, EncodeRequiredFixed) == [row] + rest;
      SanitizeItemsAppend([row], rest, sanitize);
      assert SanitizeItem(row, sanitize) == Some(items[0]);
      assert SanitizeItems([row], sanitize) == [items[0]] + SanitizeItems([], sanitize);
      assert items == [items[0]] + items[1..];
    }
  }

  /**
   * With the corrected encoding, what is saved is what is read back: every
   * label and every required flag, in order, and the enabled switch.
   */
  lemma SubmitRoundTrip(prev: Options, enabled: bool, items: seq<ChecklistItem>, sanitize: string -> string)
    requires KeepsFormValues(sanitize, items) && KeptLabels(items)
    ensures GetChecklistItems(Submit(prev, enabled, items, sanitize)) == items
    ensures IsEnabled(Submit(prev, enabled, items, sanitize)) == enabled
  {
    FixedRowsRoundTrip(items, sanitize);
    if items == [] {
    } else {
      assert items[0].text != "";
    }
  }

  /** Deleting every item saves an empty checklist, which does not bring the defaults back. */
  lemma EmptyChecklistStaysEmpty(prev: Options, enabled: bool, sanitize: string -> string)
    ensures GetChecklistItems(Submit(prev, enabled, [], sanitize)) == []
    ensures GetChecklistItems(SaveChecklist(prev, Some(EncodeEnabled(enabled)), None, sanitize)) == []
  {
  }
}

=== FILE: staged_revision.dfy ===
/**
 * The staged-revision repository and workflow state machine: creating or
 * updating the one staged revision of a published post, looking it up,
 * publishing, scheduling, discarding, approving and rejecting it, and
 * listing all staged revisions.
 */
module StagedRevision {
  import opened Types
  import opened Queries
  import opened Rewrites
  import opened Scheduler

  /** What `get_by_id` accepts: an existing post of type revision carrying a truthy marker. */
  predicate IsStaged(s: Store, id: PostId) {
    id in s.posts && s.posts[id].postType == RevisionType && ReadMarker(MetaOf(s, id))
  }

  /** Looking a staged revision up by its own ID; fails closed. */
  function GetById(s: Store, id: PostId): (r: Option<Entry>)
    ensures r.Some? <==> IsStaged(s, id)
    ensures r.Some? ==> r.value == Entry(id, s.posts[id])
  {
    if id !in s.posts || s.posts[id].postType != RevisionType then None
    else if !ReadMarker(MetaOf(s, id)) then None
    else Some(Entry(id, s.posts[id]))
  }

  /** A row `wp_get_post_revisions(parent)` returns. */
  predicate InHistory(parent: PostId, e: Entry) {
    e.post.postType == RevisionType && e.post.status == InheritStatus && e.post.parent == parent
  }

  /** A revision of `parent` that `get` would accept. */
  predicate StagedFor(s: Store, parent: PostId, id: PostId) {
    id in s.posts && InHistory(parent, Entry(id, s.posts[id])) && ReadMarker(MetaOf(s, id))
  }

  /**
   * `wp_get_post_revisions(parent)`: the parent's revisions ordered by date
   * and then ID, newest first; nothing when the parent does not exist.
   */
  function Revisions(s: Store, parent: PostId): (r: seq<Entry>)
    ensures Sorted(ByDate, r)
    ensures forall e :: e in r <==> parent in s.posts && e.id in s.posts && e.post == s.posts[e.id] && InHistory(parent, e)
  {
    if parent !in s.posts then []
    else SortNewest(ByDate, Filter((e: Entry) => InHistory(parent, e), Entries(s)))
  }

  /** The first row whose revision carries a truthy marker. */
  function FirstMarked(s: Store, es: seq<Entry>): (r: Option<Entry>)
    ensures r.None? <==> forall i :: 0 <= i < |es| ==> !ReadMarker(MetaOf(s, es[i].id))
    ensures r.Some? ==> r.value in es && ReadMarker(MetaOf(s, r.value.id))
    ensures r.Some? && Sorted(ByDate, es) ==>
              forall i :: 0 <= i < |es| && ReadMarker(MetaOf(s, es[i].id)) ==> Precedes(ByDate, r.value, es[i])
    ensures r.Some? ==> exists k :: 0 <= k < |es| && es[k] == r.value && forall i :: 0 <= i < k ==> !ReadMarker(MetaOf(s, es[i].id))
  {
    if es == [] then None
    else if ReadMarker(MetaOf(s, es[0].id)) then Some(es[0])
    else
      var r := FirstMarked(s, es[1..]);
      assert forall i :: 1 <= i < |es| ==> es[i] == es[1..][i - 1];
      assert r.Some? ==> exists k :: 0 <= k < |es| && es[k] == r.value && forall i :: 0 <= i < k ==> !ReadMarker(MetaOf(s, es[i].id)) by {
        if r.Some? {
          var k :| 0 <= k < |es[1..]| && es[1..][k] == r.value && forall i :: 0 <= i < k ==> !ReadMarker(MetaOf(s, es[1..][i].id));
          assert es[k + 1] == r.value;
        }
      }
      r
  }

  /**
   * The staged revision of `parent`: the newest of its revisions carrying the
   * marker, or none when the parent is missing or no revision is marked.
   */
  function Get(s: Store, parent: PostId): (r: Option<Entry>)
    ensures r.None? ==> parent !in s.posts || forall id :: !StagedFor(s, parent, id)
    ensures r.Some? ==> parent in s.posts && StagedFor(s, parent, r.value.id) && r.value.post == s.posts[r.value.id]
    ensures r.Some? ==> forall id :: StagedFor(s, parent, id) ==> Precedes(ByDate, r.value, Entry(id, s.posts[id]))
  {
    var r := FirstMarked(s, Revisions(s, parent));
    GetFindsNewestStaged(s, parent, r);
    r
  }

  /**
   * What the first marked row of the parent's history is: its newest staged
   * revision, if any. A lemma of its own so that `Get`'s body stays small
   * where callers unfold it.
   */
  lemma GetFindsNewestStaged(s: Store, parent: PostId, r: Option<Entry>)
    requires r == FirstMarked(s, Revisions(s, parent))
    ensures r.None? ==> parent !in s.posts || forall id :: !StagedFor(s, parent, id)
    ensures r.Some? ==> parent in s.posts && StagedFor(s, parent, r.value.id) && r.value.post == s.posts[r.value.id]
    ensures r.Some? ==> forall id :: StagedFor(s, parent, id) ==> Precedes(ByDate, r.value, Entry(id, s.posts[id]))
  {
  }

  /** The `title`, `content` and `excerpt` a request supplies; None when not set. */
  datatype PostData = PostData(title: Option<string>, content: Option<string>, excerpt: Option<string>)

  /** The author stored in `_staged_author`: the current user, or 1 for user 0. */
  function StagedAuthor(userId: int): int {
    if userId != 0 then userId else 1
  }

  /** The revision row `create` writes for a parent, with omitted fields taken from the live parent. */
  function RevisionRow(p: Post, postId: PostId, data: PostData, userId: int, now: int): Post {
    Post(RevisionType, InheritStatus, postId,
         data.title.GetOr(p.title), data.content.GetOr(p.content), data.excerpt.GetOr(p.excerpt),
         userId, now, now)
  }

  /**
   * Create the staged revision of a published post, or update the existing
   * one in place. `writeOk` is whether the host's insert or update succeeds;
   * `sanitize` stands for what the stored notes pass through:
   * `sanitize_textarea_field` and then the `sanitize_text_field` callback
   * registered for `_staged_notes`.
   */
  function Create(s: Store, postId: PostId, data: PostData, notes: Option<string>,
                  userId: int, now: int, writeOk: bool, sanitize: string -> string): (o: Outcome<PostId>)
    ensures postId !in s.posts ==> o == Outcome(Err(InvalidPost), s)
    ensures postId in s.posts && s.posts[postId].status != PublishStatus ==> o == Outcome(Err(NotPublished), s)
    ensures postId in s.posts && s.posts[postId].status == PublishStatus && !writeOk ==> o == Outcome(Err(WriteFailed), s)
    ensures o.result.Ok? <==> postId in s.posts && s.posts[postId].status == PublishStatus && writeOk
    ensures o.result.Ok? ==>
      var rid := o.result.value;
      var s' := o.store;
      && (Get(s, postId).Some? ==> rid == Get(s, postId).value.id)
      && (Get(s, postId).None? ==> rid == s.nextId)
      && s'.posts == s.posts[rid := RevisionRow(s.posts[postId], postId, data, userId, now)]
      && MetaOf(s', rid) == Meta(Some("1"), Some("pending"), MetaOf(s, rid).publishDate, Some(StagedAuthor(userId)),
                                 if notes.Some? then Some(sanitize(notes.value)) else MetaOf(s, rid).notes)
      && (forall id :: id != rid ==> MetaOf(s', id) == MetaOf(s, id))
      && s'.pointers == s.pointers[postId := rid]
      && s.nextId <= s'.nextId
      && s'.timers == s.timers && s'.log == s.log
    ensures Valid(s) ==> Valid(o.store)
    ensures Valid(s) && o.result.Ok? ==>
      && 0 < o.result.value < o.store.nextId
      && (Get(s, postId).None? ==> o.result.value !in s.posts)
  {
    if postId !in s.posts then Outcome(Err(InvalidPost), s)
    else if s.posts[postId].status != PublishStatus then Outcome(Err(NotPublished), s)
    else if !writeOk then Outcome(Err(WriteFailed), s)
    else
      var existing := Get(s, postId);
      var rid := if existing.Some? then existing.value.id else s.nextId;
      var row := RevisionRow(s.posts[postId], postId, data, userId, now);
      var m := MetaOf(s, rid);
      var m' := m.(staged := Some("1"), author := Some(StagedAuthor(userId)), status := Some("pending"),
                   notes := if notes.Some? then Some(sanitize(notes.value)) else m.notes);
      Outcome(Ok(rid), Stage(s, postId, rid, row, m', if existing.Some? then s.nextId else s.nextId + 1))
  }

  /** Writing revision `rid` of `parent` with its meta, touching nothing else. */
  function Stage(s: Store, parent: PostId, rid: PostId, row: Post, m: Meta, nextId: PostId): (s': Store)
    ensures s'.posts == s.posts[rid := row]
    ensures MetaOf(s', rid) == m && forall id :: id != rid ==> MetaOf(s', id) == MetaOf(s, id)
    ensures s'.pointers == s.pointers[parent := rid]
    ensures s'.timers == s.timers && s'.log == s.log && s'.nextId == nextId
    ensures Valid(s) && 0 < rid < nextId && s.nextId <= nextId && row.status == InheritStatus ==> Valid(s')
  {
    s.(posts := s.posts[rid := row], meta := s.meta[rid := m], pointers := s.pointers[parent := rid], nextId := nextId)
  }

  /**
   * Publish a staged revision: the host restores its title, content and
   * excerpt onto the parent (`restoreOk` is whether it succeeds), then the
   * five workflow keys, the parent's pointer and any armed timer are removed.
   */
  function Publish(s: Store, id: PostId, restoreOk: bool, now: int): (o: Outcome<PostId>)
    ensures !IsStaged(s, id) ==> o == Outcome(Err(InvalidRevision), s)
    ensures IsStaged(s, id) && (!restoreOk || s.posts[id].parent !in s.posts) ==> o == Outcome(Err(RestoreFailed), s)
    ensures o.result.Err? ==> o.store == s
    ensures o.result.Ok? <==> IsStaged(s, id) && restoreOk && s.posts[id].parent in s.posts
    ensures o.result.Ok? ==>
      var rev := s.posts[id];
      var parent := rev.parent;
      var s' := o.store;
      && o.result.value == parent
      && parent in s'.posts
      && s'.posts[parent] == s.posts[parent].(title := rev.title, content := rev.content, excerpt := rev.excerpt, modified := now)
      && (forall j :: j != parent ==> (j in s'.posts <==> j in s.posts))
      && (forall j :: j != parent && j in s.posts ==> s'.posts[j] == s.posts[j])
      && MetaOf(s', id) == NoMeta
      && (forall j :: j != id ==> MetaOf(s', j) == MetaOf(s, j))
      && s'.pointers == s.pointers - {parent}
      && TimersFor(s'.timers, id) == []
      && (forall j :: j != id ==> TimersFor(s'.timers, j) == TimersFor(s.timers, j))
      && s'.log == s.log + [StagedPublished(parent, id)]
      && s'.nextId == s.nextId
      && !IsStaged(s', id)
  {
    match GetById(s, id)
    case None => Outcome(Err(InvalidRevision), s)
    case Some(rev) =>
      var parent := rev.post.parent;
      if !restoreOk || parent !in s.posts then Outcome(Err(RestoreFailed), s)
      else
        var p := s.posts[parent];
        var p' := p.(title := rev.post.title, content := rev.post.content, excerpt := rev.post.excerpt, modified := now);
        Outcome(Ok(parent), s.(posts := s.posts[parent := p'],
                               meta := s.meta - {id},
                               pointers := s.pointers - {parent},
                               timers := ClearTimers(s.timers, id),
                               log := s.log + [StagedPublished(parent, id)]))
  }

  /** `strtotime` succeeded with a non-zero timestamp strictly after `now`. */
  predicate InFuture(timestamp: Option<int>, now: int) {
    timestamp.Some? && timestamp.value != 0 && timestamp.value > now
  }

  /**
   * Schedule a staged revision for publishing at `timestamp` (the parsed
   * date, None when unparseable). The workflow status is not consulted.
   * `armOk` is whether the host accepts the one-shot event.
   */
  function Schedule(s: Store, id: PostId, timestamp: Option<int>, now: int, armOk: bool): (o: Outcome<()>)
    ensures !IsStaged(s, id) ==> o == Outcome(Err(InvalidRevision), s)
    ensures IsStaged(s, id) && !InFuture(timestamp, now) ==> o == Outcome(Err(InvalidDate), s)
    ensures o.result.Ok? <==> IsStaged(s, id) && InFuture(timestamp, now) && armOk
    ensures IsStaged(s, id) && InFuture(timestamp, now) ==>
      var s' := o.store;
      && o.result == (if armOk then Ok(()) else Err(ScheduleFailed))
      && MetaOf(s', id) == MetaOf(s, id).(publishDate := timestamp)
      && (forall j :: j != id ==> MetaOf(s', j) == MetaOf(s, j))
      && TimersFor(s'.timers, id) == (if armOk then [Timer(id, timestamp.value)] else [])
      && (forall j :: j != id ==> TimersFor(s'.timers, j) == TimersFor(s.timers, j))
      && s'.posts == s.posts && s'.pointers == s.pointers && s'.log == s.log && s'.nextId == s.nextId
      && IsStaged(s', id)
  {
    if GetById(s, id).None? then Outcome(Err(InvalidRevision), s)
    else if !InFuture(timestamp, now) then Outcome(Err(InvalidDate), s)
    else
      var t := timestamp.value;
      var cleared := ClearTimers(s.timers, id);
      var s1 := s.(meta := s.meta[id := MetaOf(s, id).(publishDate := Some(t))], timers := cleared);
      if armOk then Outcome(Ok(()), s1.(timers := Arm(cleared, id, t)))
      else Outcome(Err(ScheduleFailed), s1)
  }

  /**
   * Discard a staged revision: disarm its timer, delete it with its meta,
   * clear the parent's pointer. `deleteOk` is whether the host's deletion
   * succeeds; its result is ignored, so a failed deletion leaves the marked
   * revision in place while everything else still happens and the call
   * still reports success.
   */
  function Discard(s: Store, id: PostId, deleteOk: bool): (o: Outcome<()>)
    ensures !IsStaged(s, id) ==> o == Outcome(Err(InvalidRevision), s)
    ensures IsStaged(s, id) ==>
      var parent := s.posts[id].parent;
      var s' := o.store;
      && o.result == Ok(())
      && (deleteOk ==> id !in s'.posts && MetaOf(s', id) == NoMeta)
      && (!deleteOk ==> s'.posts == s.posts && s'.meta == s.meta)
      && (forall j :: j != id ==> (j in s'.posts <==> j in s.posts))
      && (forall j :: j != id && j in s.posts ==> s'.posts[j] == s.posts[j])
      && (forall j :: j != id ==> MetaOf(s', j) == MetaOf(s, j))
      && s'.pointers == s.pointers - {parent}
      && TimersFor(s'.timers, id) == []
      && (forall j :: j != id ==> TimersFor(s'.timers, j) == TimersFor(s.timers, j))
      && s'.log == s.log + [StagedDiscarded(parent, id)]
      && s'.nextId == s.nextId
  {
    match GetById(s, id)
    case None => Outcome(Err(InvalidRevision), s)
    case Some(rev) =>
      var parent := rev.post.parent;
      var s1 := if deleteOk then s.(posts := s.posts - {id}, meta := s.meta - {id}) else s;
      Outcome(Ok(()), s1.(pointers := s.pointers - {parent},
                          timers := ClearTimers(s.timers, id),
                          log := s.log + [StagedDiscarded(parent, id)]))
  }

  /** Approve a staged revision: only its status changes. */
  function Approve(s: Store, id: PostId): (o: Outcome<()>)
    ensures !IsStaged(s, id) ==> o == Outcome(Err(InvalidRevision), s)
    ensures IsStaged(s, id) ==>
      var s' := o.store;
      && o.result == Ok(())
      && ReadStatus(MetaOf(s', id)) == "approved"
      && MetaOf(s', id) == MetaOf(s, id).(status := Some("approved"))
      && (forall j :: j != id ==> MetaOf(s', j) == MetaOf(s, j))
      && s'.posts == s.posts && s'.pointers == s.pointers && s'.timers == s.timers && s'.nextId == s.nextId
      && s'.log == s.log + [StagedApproved(id)]
      && IsStaged(s', id)
  {
    if GetById(s, id).None? then Outcome(Err(InvalidRevision), s)
    else
      Outcome(Ok(()), s.(meta := s.meta[id := MetaOf(s, id).(status := Some("approved"))],
                         log := s.log + [StagedApproved(id)]))
  }

  /** Reject a staged revision: status becomes rejected, the timer and the stored publish date go. */
  function Reject(s: Store, id: PostId): (o: Outcome<()>)
    ensures !IsStaged(s, id) ==> o == Outcome(Err(InvalidRevision), s)
    ensures IsStaged(s, id) ==>
      var s' := o.store;
      && o.result == Ok(())
      && ReadStatus(MetaOf(s', id)) == "rejected"
      && MetaOf(s', id) == MetaOf(s, id).(status := Some("rejected"), publishDate := None)
      && (forall j :: j != id ==> MetaOf(s', j) == MetaOf(s, j))
      && TimersFor(s'.timers, id) == []
      && (forall j :: j != id ==> TimersFor(s'.timers, j) == TimersFor(s.timers, j))
      && s'.posts == s.posts && s'.pointers == s.pointers && s'.nextId == s.nextId
      && s'.log == s.log + [StagedRejected(id)]
      && IsStaged(s', id)
  {
    if GetById(s, id).None? then Outcome(Err(InvalidRevision), s)
    else
      Outcome(Ok(()), s.(meta := s.meta[id := MetaOf(s, id).(status := Some("rejected"), publishDate := None)],
                         timers := ClearTimers(s.timers, id),
                         log := s.log + [StagedRejected(id)]))
  }

  /** The arguments of `get_all`; a missing one takes its default. */
  datatype ListQuery = ListQuery(status: Option<string>, perPage: Option<int>, page: Option<int>)

  /** One row of the listing: the revision joined with its parent and its workflow meta. */
  datatype Summary = Summary(
    revisionId: PostId,
    parentId: PostId,
    modified: int,
    author: int,
    revisionTitle: string,
    revisionContent: string,
    parentTitle: string,
    parentType: string,
    status: Option<string>,
    scheduledDate: Option<int>,
    notes: Option<string>,
    stagedAuthor: Option<int>)

  /** The status filter in force: none when the argument is missing or empty. */
  function StatusFilter(q: ListQuery): Option<string> {
    if q.status.Some? && Truthy(q.status.value) then q.status else None
  }

  function PerPage(q: ListQuery): int {
    q.perPage.GetOr(20)
  }

  function PageNumber(q: ListQuery): int {
    q.page.GetOr(1)
  }

  /** A row the listing's joins and WHERE clause keep. */
  predicate Listed(s: Store, filter: Option<string>, e: Entry) {
    && e.post.postType == RevisionType
    && e.post.parent in s.posts
    && MetaOf(s, e.id).staged == Some("1")
    && (filter.None? || MetaOf(s, e.id).status == filter)
  }

  /**
   * Every listed revision, most recently modified first: each row the joins
   * and WHERE clause keep appears exactly once, and nothing else.
   */
  function Listing(s: Store, filter: Option<string>): (r: seq<Entry>)
    ensures Sorted(ByModified, r)
    ensures forall e :: e in r <==> e.id in s.posts && e.post == s.posts[e.id] && Listed(s, filter, e)
  {
    SortNewest(ByModified, Filter((e: Entry) => Listed(s, filter, e), Entries(s)))
  }

  /** No listed revision is repeated. */
  lemma ListingOnce(s: Store, filter: Option<string>, e: Entry)
    ensures multiset(Listing(s, filter))[e] == if e in Listing(s, filter) then 1 else 0
  {
    var f := (x: Entry) => Listed(s, filter, x);
    var kept := Filter(f, Entries(s));
    SortNewestPermutes(ByModified, kept);
    FilterCount(f, Entries(s), e);
    EntriesOnce(s, e);
  }

  function Summarize(s: Store, e: Entry): Summary
    requires e.post.parent in s.posts
  {
    var p := s.posts[e.post.parent];
    var m := MetaOf(s, e.id);
    Summary(e.id, e.post.parent, e.post.modified, e.post.author, e.post.title, e.post.content,
            p.title, p.postType, m.status, m.publishDate, m.notes, m.author)
  }

  /** The arguments `get_all` accepts: a page from 1 on, a non-negative page size. */
  predicate ValidQuery(q: ListQuery) {
    (q.perPage.None? || q.perPage.value >= 0) && (q.page.None? || q.page.value >= 1)
  }

  /** `(page - 1) * per_page`, the number of rows skipped. */
  function Offset(q: ListQuery): (skip: nat)
    requires ValidQuery(q)
    ensures skip == (PageNumber(q) - 1) * PerPage(q)
  {
    Times(PageNumber(q) - 1, PerPage(q))
  }

  /** Multiplication of naturals by repeated addition, kept apart so that callers see no nonlinear term. */
  function Times(a: nat, b: nat): (r: nat)
    ensures r == a * b
  {
    if a == 0 then 0 else b + Times(a - 1, b)
  }

  /** The rows of a page, each joined with its parent and its meta. */
  function SummarizeAll(s: Store, es: seq<Entry>): (r: seq<Summary>)
    requires forall i :: 0 <= i < |es| ==> es[i].post.parent in s.posts
    ensures |r| == |es|
    ensures forall i :: 0 <= i < |r| ==> r[i] == Summarize(s, es[i])
  {
    if es == [] then [] else [Summarize(s, es[0])] + SummarizeAll(s, es[1..])
  }

  /**
   * `r` is the page of `all` that `LIMIT limit OFFSET skip` selects, each row
   * joined with its parent and its meta.
   */
  predicate IsPageOf(s: Store, all: seq<Entry>, skip: nat, limit: nat, r: seq<Summary>) {
    && |r| == (if skip >= |all| then 0 else if limit < |all| - skip then limit else |all| - skip)
    && forall i :: 0 <= i < |r| ==> skip + i < |all| && all[skip + i].post.parent in s.posts && r[i] == Summarize(s, all[skip + i])
  }

  /** Summaries of the rows of `all` from `skip` on, at most `limit` of them. */
  function PageSummaries(s: Store, all: seq<Entry>, skip: nat, limit: nat): (r: seq<Summary>)
    requires forall e :: e in all ==> e.post.parent in s.posts
    ensures IsPageOf(s, all, skip, limit, r)
  {
    var page := Page(all, skip, limit);
    assert forall i :: 0 <= i < |page| ==> page[i] in all;
    SummarizeAll(s, page)
  }

  /**
   * `get_all`: one page, `LIMIT per_page OFFSET (page - 1) * per_page`, of
   * the listing; pages start at 1 and hold 20 rows unless told otherwise.
   */
  function GetAll(s: Store, q: ListQuery): (r: seq<Summary>)
    requires ValidQuery(q)
    ensures |r| <= PerPage(q)
    ensures IsPageOf(s, Listing(s, StatusFilter(q)), Offset(q), PerPage(q), r)
  {
    PageSummaries(s, Listing(s, StatusFilter(q)), Offset(q), PerPage(q))
  }

  /** The row properties of a page cut from any ordered sequence of listed rows. */
  lemma PageSummariesRows(s: Store, filter: Option<string>, all: seq<Entry>, skip: nat, limit: nat)
    requires forall e :: e in all ==> e.id in s.posts && e.post.parent in s.posts && Listed(s, filter, e)
    requires Sorted(ByModified, all)
    ensures var r := PageSummaries(s, all, skip, limit);
            && (forall i :: 0 <= i < |r| ==> r[i].revisionId in s.posts && MetaOf(s, r[i].revisionId).staged == Some("1"))
            && (forall i :: 0 <= i < |r| ==> r[i].parentId in s.posts)
            && (filter.Some? ==> forall i :: 0 <= i < |r| ==> r[i].status == filter)
            && (forall i, j :: 0 <= i < j < |r| ==> r[i].modified >= r[j].modified)
  {
    var r := PageSummaries(s, all, skip, limit);
    forall i | 0 <= i < |r|
      ensures r[i].revisionId in s.posts && MetaOf(s, r[i].revisionId).staged == Some("1") && r[i].parentId in s.posts
      ensures filter.Some? ==> r[i].status == filter
    {
      assert all[skip + i] in all;
    }
    forall i, j | 0 <= i < j < |r|
      ensures r[i].modified >= r[j].modified
    {
      assert Precedes(ByModified, all[skip + i], all[skip + j]);
    }
  }

  /**
   * Every listed row is a revision marked exactly "1" whose parent exists,
   * carries the requested status when one is given, and the rows come most
   * recently modified first.
   */
  lemma GetAllRows(s: Store, q: ListQuery)
    requires ValidQuery(q)
    ensures var r := GetAll(s, q);
            && (forall i :: 0 <= i < |r| ==> r[i].revisionId in s.posts && MetaOf(s, r[i].revisionId).staged == Some("1"))
            && (forall i :: 0 <= i < |r| ==> r[i].parentId in s.posts)
            && (StatusFilter(q).Some? ==> forall i :: 0 <= i < |r| ==> r[i].status == StatusFilter(q))
            && (forall i, j :: 0 <= i < j < |r| ==> r[i].modified >= r[j].modified)
  {
    PageSummariesRows(s, StatusFilter(q), Listing(s, StatusFilter(q)), Offset(q), PerPage(q));
  }

  /** The REST shape of a staged revision. */
  datatype Response = Response(
    id: PostId,
    postId: PostId,
    title: string,
    content: string,
    excerpt: string,
    author: int,
    status: string,
    scheduledDate: Option<int>,
    notes: string,
    modified: int)

  /** `format_for_response`: an empty status is reported as "pending". */
  function FormatForResponse(s: Store, rev: Entry): (r: Response)
    ensures Truthy(r.status)
    ensures Truthy(ReadStatus(MetaOf(s, rev.id))) ==> r.status == ReadStatus(MetaOf(s, rev.id))
    ensures !Truthy(ReadStatus(MetaOf(s, rev.id))) ==> r.status == "pending"
    ensures r.id == rev.id && r.postId == rev.post.parent
    ensures r.title == rev.post.title && r.content == rev.post.content && r.excerpt == rev.post.excerpt
    ensures r.author == ReadAuthor(MetaOf(s, rev.id)) && r.notes == ReadNotes(MetaOf(s, rev.id))
    ensures r.scheduledDate == MetaOf(s, rev.id).publishDate && r.modified == rev.post.modified
  {
    var m := MetaOf(s, rev.id);
    Response(rev.id, rev.post.parent, rev.post.title, rev.post.content, rev.post.excerpt,
             ReadAuthor(m),
             if Truthy(ReadStatus(m)) then ReadStatus(m) else "pending",
             m.publishDate, ReadNotes(m), rev.post.modified)
  }
}

=== FILE: types.dfy ===
/**
 * The data the staged-revision workflow works on: the host's posts, the
 * workflow metadata attached to revisions, the parent-side pointer, the
 * one-shot publish timers and the log of fired actions, gathered into one
 * immutable store value.
 */
module Types {

  /** The conventional Some/None datatype, used for missing keys and
      unparseable inputs. */
  datatype Option<T> = None | Some(value: T) {
    function GetOr(default: T): T {
      match this
      case Some(v) => v
      case None => default
    }
  }

  /** WordPress post IDs (the posts table's auto-increment key). */
  type PostId = int

  /** PHP truthiness of a string value: only "" and "0" are falsy. */
  predicate Truthy(v: string) {
    v != "" && v != "0"
  }

  /** PHP `empty()` on an array slot that may be missing. */
  predicate Empty(v: Option<string>) {
    v.None? || !Truthy(v.value)
  }

  const RevisionType := "revision"
  const InheritStatus := "inherit"
  const PublishStatus := "publish"

  /** A row of the host's posts table: a content item or one of its revisions. */
  datatype Post = Post(
    postType: string,
    status: string,
    parent: PostId,
    title: string,
    content: string,
    excerpt: string,
    author: int,
    date: int,
    modified: int)

  /** A post together with its ID, as the host's queries return it. */
  datatype Entry = Entry(id: PostId, post: Post)

  /**
   * The five workflow meta keys stored on a revision
   * (_staged_revision, _staged_status, _staged_publish_date, _staged_author,
   * _staged_notes); None means the key is not stored.
   * The publish date is kept as the UTC timestamp it was formatted from.
   */
  datatype Meta = Meta(
    staged: Option<string>,
    status: Option<string>,
    publishDate: Option<int>,
    author: Option<int>,
    notes: Option<string>)

  const NoMeta := Meta(None, None, None, None, None)

  /** One armed `rewrites_publish_staged` event with its revision argument. */
  datatype Timer = Timer(revision: PostId, at: int)

  /** Actions fired through `do_action`, in firing order. */
  datatype Event =
    | StagedPublished(parent: PostId, revision: PostId)
    | StagedDiscarded(parent: PostId, revision: PostId)
    | StagedApproved(revision: PostId)
    | StagedRejected(revision: PostId)
    | ScheduledPublishCompleted(parent: PostId, revision: PostId)

  /**
   * The abstract store: posts by ID, workflow meta by revision ID, the
   * parents' `_has_staged_revision` pointers, the armed timers in
   * scheduling order, the action log, and the next auto-increment ID.
   */
  datatype Store = Store(
    posts: map<PostId, Post>,
    meta: map<PostId, Meta>,
    pointers: map<PostId, PostId>,
    timers: seq<Timer>,
    log: seq<Event>,
    nextId: PostId)

  /** Reading a post's workflow meta; a post with no stored keys has NoMeta. */
  function MetaOf(s: Store, id: PostId): Meta {
    if id in s.meta then s.meta[id] else NoMeta
  }

  /** The WP_Error codes the workflow returns. */
  datatype Error =
    | InvalidPost        // invalid_post
    | NotPublished       // not_published
    | WriteFailed        // the error wp_insert_post / wp_update_post return
    | InvalidRevision    // invalid_revision
    | RestoreFailed      // restore_failed
    | InvalidDate        // invalid_date
    | ScheduleFailed     // schedule_failed

  datatype Result<T> = Ok(value: T) | Err(error: Error)

  /** What an operation returns together with the store it leaves behind. */
  datatype Outcome<T> = Outcome(result: Result<T>, store: Store)

  /**
   * What the host guarantees of its tables: IDs are positive and below the
   * auto-increment counter, every revision has status `inherit`, and meta
   * is only stored for posts that exist.
   */
  ghost predicate Valid(s: Store) {
    && 0 < s.nextId
    && (forall id :: id in s.posts ==> 0 < id < s.nextId)
    && (forall id :: id in s.posts && s.posts[id].postType == RevisionType ==> s.posts[id].status == InheritStatus)
    && (forall id :: id !in s.posts ==> MetaOf(s, id) == NoMeta)
  }
}

=== FILE: workflow.dfy ===
/**
 * Properties of the staged-revision workflow across several operations: the
 * parent-side pointer agrees with the marked revisions, so a published post
 * has at most one staged revision, and every operation keeps it that way;
 * plus the sequences the workflow promises (create twice, publish twice,
 * schedule twice, reject before the timer fires, approve then publish).
 */
module Workflow {
  import opened Types
  import opened Queries
  import opened Rewrites
  import opened Scheduler
  import opened StagedRevision
  import opened CronHandler

  /**
   * The parent's `_has_staged_revision` pointer designates exactly its marked
   * revision: every pointer leads to a marked revision of that parent, and
   * every marked revision is the one its parent points to.
   */
  ghost predicate PointersAgree(s: Store) {
    && (forall p :: p in s.pointers ==> StagedFor(s, p, s.pointers[p]))
    && (forall p, id :: StagedFor(s, p, id) ==> p in s.pointers && s.pointers[p] == id)
  }

  ghost predicate Consistent(s: Store) {
    Valid(s) && PointersAgree(s)
  }

  /** A parent never has two staged revisions. */
  lemma OneStagedPerParent(s: Store, p: PostId, a: PostId, b: PostId)
    requires PointersAgree(s)
    requires StagedFor(s, p, a) && StagedFor(s, p, b)
    ensures a == b
  {
  }

  /** `get` finds exactly the revision the parent's pointer designates. */
  lemma GetFollowsPointer(s: Store, p: PostId)
    requires PointersAgree(s) && p in s.posts
    ensures Get(s, p).Some? <==> p in s.pointers
    ensures Get(s, p).Some? ==> Get(s, p).value == Entry(s.pointers[p], s.posts[s.pointers[p]])
  {
    if p in s.pointers {
      assert StagedFor(s, p, s.pointers[p]);
    }
  }

  /** Two stores agree on what decides whether `id` is a staged revision of some parent. */
  ghost predicate SameHeader(s: Store, s': Store, id: PostId) {
    && (id in s'.posts <==> id in s.posts)
    && (id in s.posts ==>
          && s'.posts[id].postType == s.posts[id].postType
          && s'.posts[id].status == s.posts[id].status
          && s'.posts[id].parent == s.posts[id].parent)
    && MetaOf(s', id).staged == MetaOf(s, id).staged
  }

  /**
   * What a shared header buys: the same parents count `id` as staged. A lemma
   * of its own so that a caller's proof sees this one consequence rather
   * than the unfolded headers of every parent.
   */
  lemma SameHeaderStaged(s: Store, s': Store, id: PostId)
    requires SameHeader(s, s', id)
    ensures forall p :: StagedFor(s', p, id) <==> StagedFor(s, p, id)
  {
  }

  /** An operation that only touches the header of `x` keeps the pointers in agreement if it fixes `x`'s own entry. */
  lemma {:induction false} AgreeAfterChange(s: Store, s': Store, x: PostId)
    requires PointersAgree(s)
    requires forall id :: id != x ==> SameHeader(s, s', id)
    requires forall p :: p in s'.pointers && s'.pointers[p] != x ==> p in s.pointers && s.pointers[p] == s'.pointers[p]
    requires forall p :: p in s.pointers && s.pointers[p] != x ==> p in s'.pointers && s'.pointers[p] == s.pointers[p]
    requires forall p :: StagedFor(s', p, x) <==> p in s'.pointers && s'.pointers[p] == x
    ensures PointersAgree(s')
  {
    forall p | p in s'.pointers
      ensures StagedFor(s', p, s'.pointers[p])
    {
      var id := s'.pointers[p];
      if id != x {
        SameHeaderStaged(s, s', id);
      }
    }
    forall p, id | StagedFor(s', p, id)
      ensures p in s'.pointers && s'.pointers[p] == id
    {
      if id != x {
        SameHeaderStaged(s, s', id);
      }
    }
  }

  /**
   * Writing revision `rid` of published `postId` with the marker and pointing
   * `postId` at it keeps the store consistent, provided `rid` is the revision
   * the pointer already designated or, when there was none, a fresh ID.
   */
  lemma {:induction false} StagingKeepsConsistent(s: Store, s': Store, postId: PostId, rid: PostId)
    requires Consistent(s)
    requires postId in s.posts
    requires postId in s.pointers ==> rid == s.pointers[postId]
    requires postId !in s.pointers ==> rid !in s.posts && rid == s.nextId
    requires rid in s'.posts && InHistory(postId, Entry(rid, s'.posts[rid])) && ReadMarker(MetaOf(s', rid))
    requires s'.pointers == s.pointers[postId := rid]
    requires 0 < rid < s'.nextId && s.nextId <= s'.nextId
    requires forall id :: id != rid ==> (id in s'.posts <==> id in s.posts)
    requires forall id :: id != rid && id in s.posts ==> s'.posts[id] == s.posts[id]
    requires forall id :: id != rid ==> MetaOf(s', id) == MetaOf(s, id)
    ensures Consistent(s')
  {
    forall id | id != rid
      ensures SameHeader(s, s', id)
    {
    }
    assert StagedFor(s', postId, rid);
    forall p | StagedFor(s', p, rid)
      ensures p in s'.pointers && s'.pointers[p] == rid
    {
    }
    forall p | p in s'.pointers && s'.pointers[p] == rid
      ensures StagedFor(s', p, rid)
    {
      if p != postId {
        assert false;
      }
    }
    forall p | p in s.pointers && s.pointers[p] != rid
      ensures p in s'.pointers && s'.pointers[p] == s.pointers[p]
    {
    }
    AgreeAfterChange(s, s', rid);
  }

  /** The revision `create` writes is the one the parent's pointer designates, or a fresh one when there is none. */
  lemma CreateFollowsPointer(s: Store, postId: PostId, data: PostData, notes: Option<string>,
                             userId: int, now: int, writeOk: bool, sanitize: string -> string)
    requires Consistent(s)
    ensures var o := Create(s, postId, data, notes, userId, now, writeOk, sanitize);
            o.result.Ok? ==>
              && (postId in s.pointers ==> o.result.value == s.pointers[postId])
              && (postId !in s.pointers ==> o.result.value !in s.posts && o.result.value == s.nextId)
  {
    if postId in s.posts {
      GetFollowsPointer(s, postId);
    }
  }

  /** What `stage` may be given: the pointer's revision of a published post, or a fresh ID when there is none. */
  ghost predicate StageTarget(s: Store, postId: PostId, rid: PostId, nextId: PostId) {
    && postId in s.posts
    && (postId in s.pointers ==> rid == s.pointers[postId])
    && (postId !in s.pointers ==> rid !in s.posts && rid == s.nextId)
    && 0 < rid < nextId && s.nextId <= nextId
  }

  /** The write `create` performs keeps the store consistent when it targets the pointer's revision or a fresh ID. */
  lemma StageKeepsConsistent(s: Store, postId: PostId, rid: PostId, row: Post, m: Meta, nextId: PostId)
    requires Consistent(s)
    requires StageTarget(s, postId, rid, nextId)
    requires InHistory(postId, Entry(rid, row)) && m.staged == Some("1")
    ensures Consistent(Stage(s, postId, rid, row, m, nextId))
  {
    assert ReadMarker(m);
    StagingKeepsConsistent(s, Stage(s, postId, rid, row, m, nextId), postId, rid);
  }

  /** A successful `create` is one such write. */
  lemma CreateIsStage(s: Store, postId: PostId, data: PostData, notes: Option<string>,
                      userId: int, now: int, sanitize: string -> string)
    returns (row: Post, m: Meta)
    requires Valid(s) && postId in s.posts && s.posts[postId].status == PublishStatus
    ensures var o := Create(s, postId, data, notes, userId, now, true, sanitize);
            && o.result.Ok?
            && InHistory(postId, Entry(o.result.value, row)) && m.staged == Some("1")
            && o.store == Stage(s, postId, o.result.value, row, m, o.store.nextId)
  {
    var o := Create(s, postId, data, notes, userId, now, true, sanitize);
    var rid := o.result.value;
    row := RevisionRow(s.posts[postId], postId, data, userId, now);
    var m0 := MetaOf(s, rid);
    m := m0.(staged := Some("1"), author := Some(StagedAuthor(userId)), status := Some("pending"),
             notes := if notes.Some? then Some(sanitize(notes.value)) else m0.notes);
  }

  lemma CreateKeepsConsistent(s: Store, postId: PostId, data: PostData, notes: Option<string>,
                              userId: int, now: int, writeOk: bool, sanitize: string -> string)
    requires Consistent(s)
    ensures Consistent(Create(s, postId, data, notes, userId, now, writeOk, sanitize).store)
  {
    if writeOk && postId in s.posts && s.posts[postId].status == PublishStatus {
      var o := Create(s, postId, data, notes, userId, now, true, sanitize);
      var row, m := CreateIsStage(s, postId, data, notes, userId, now, sanitize);
      CreateFollowsPointer(s, postId, data, notes, userId, now, true, sanitize);
      StageKeepsConsistent(s, postId, o.result.value, row, m, o.store.nextId);
    }
  }

  lemma {:induction false} PublishKeepsConsistent(s: Store, id: PostId, restoreOk: bool, now: int)
    requires Consistent(s)
    ensures Consistent(Publish(s, id, restoreOk, now).store)
  {
    var o := Publish(s, id, restoreOk, now);
    if o.result.Ok? {
      PublishTouchesOnlyItsRevision(s, id, restoreOk, now);
      AgreeAfterChange(s, o.store, id);
    }
  }

  /** A successful publish keeps the host's table guarantees, leaves every other header and pointer alone, and unstages its revision. */
  lemma PublishTouchesOnlyItsRevision(s: Store, id: PostId, restoreOk: bool, now: int)
    requires Consistent(s) && IsStaged(s, id) && restoreOk && s.posts[id].parent in s.posts
    ensures var s' := Publish(s, id, restoreOk, now).store;
            && (forall j :: j != id ==> SameHeader(s, s', j))
            && (forall p :: p in s.pointers && s.pointers[p] != id ==> p in s'.pointers && s'.pointers[p] == s.pointers[p])
            && (forall p :: p in s'.pointers ==> s'.pointers[p] != id)
            && (forall p :: !StagedFor(s', p, id))
            && Valid(s')
  {
    var s' := Publish(s, id, restoreOk, now).store;
    var parent := s.posts[id].parent;
    assert StagedFor(s, parent, id);
    forall j | j != id
      ensures SameHeader(s, s', j)
    {
    }
    forall p | p in s.pointers && s.pointers[p] != id
      ensures p in s'.pointers && s'.pointers[p] == s.pointers[p]
    {
    }
  }

  /** A discard whose deletion succeeds keeps the store consistent. */
  lemma {:induction false} DiscardKeepsConsistent(s: Store, id: PostId)
    requires Consistent(s)
    ensures Consistent(Discard(s, id, true).store)
  {
    var o := Discard(s, id, true);
    if IsStaged(s, id) {
      var s' := o.store;
      var parent := s.posts[id].parent;
      assert StagedFor(s, parent, id);
      forall j | j != id
        ensures SameHeader(s, s', j)
      {
      }
      forall p | p in s.pointers && s.pointers[p] != id
        ensures p in s'.pointers && s'.pointers[p] == s.pointers[p]
      {
      }
      AgreeAfterChange(s, s', id);
    }
  }

  /**
   * A discard whose deletion fails still clears the pointer and reports
   * success, but the marked revision stays: the parent has a staged revision
   * its pointer no longer designates, and `get` still finds it.
   */
  lemma FailedDeleteLeavesStaged(s: Store, id: PostId)
    requires Consistent(s) && IsStaged(s, id)
    ensures var parent := s.posts[id].parent;
            var o := Discard(s, id, false);
            && o.result.Ok?
            && IsStaged(o.store, id)
            && StagedFor(o.store, parent, id)
            && parent !in o.store.pointers
            && !PointersAgree(o.store)
            && (parent in o.store.posts ==> Get(o.store, parent) == Some(Entry(id, s.posts[id])))
  {
    var parent := s.posts[id].parent;
    var s1 := Discard(s, id, false).store;
    assert s1.posts == s.posts && s1.meta == s.meta && parent !in s1.pointers;
    assert StagedFor(s, parent, id);
    assert StagedFor(s1, parent, id);
    if parent in s1.posts {
      GetSeesSameMarks(s, s1, parent, id);
    }
  }

  /** `get` on a store with the same posts and meta finds the one revision the invariant allows. */
  lemma GetSeesSameMarks(s: Store, s1: Store, parent: PostId, id: PostId)
    requires PointersAgree(s) && StagedFor(s, parent, id)
    requires s1.posts == s.posts && s1.meta == s.meta && parent in s1.posts
    ensures Get(s1, parent) == Some(Entry(id, s.posts[id]))
  {
    assert StagedFor(s1, parent, id);
    var g := Get(s1, parent);
    assert StagedFor(s, parent, g.value.id);
    OneStagedPerParent(s, parent, id, g.value.id);
  }

  /** Changing workflow meta other than the marker, or the log, changes no header and no pointer. */
  lemma {:induction false} MetaOnlyKeepsConsistent(s: Store, s': Store)
    requires Consistent(s)
    requires s'.posts == s.posts && s'.pointers == s.pointers && s'.nextId == s.nextId
    requires forall j :: j !in s.posts ==> MetaOf(s', j) == NoMeta
    requires forall j :: MetaOf(s', j).staged == MetaOf(s, j).staged
    ensures Consistent(s')
  {
    forall j ensures SameHeader(s, s', j) {
    }
    AgreeAfterChange(s, s', 0);
  }

  lemma ApproveKeepsConsistent(s: Store, id: PostId)
    requires Consistent(s)
    ensures Consistent(Approve(s, id).store)
  {
    if IsStaged(s, id) {
      MetaOnlyKeepsConsistent(s, Approve(s, id).store);
    }
  }

  lemma RejectKeepsConsistent(s: Store, id: PostId)
    requires Consistent(s)
    ensures Consistent(Reject(s, id).store)
  {
    if IsStaged(s, id) {
      MetaOnlyKeepsConsistent(s, Reject(s, id).store);
    }
  }

  lemma ScheduleKeepsConsistent(s: Store, id: PostId, timestamp: Option<int>, now: int, armOk: bool)
    requires Consistent(s)
    ensures Consistent(Schedule(s, id, timestamp, now, armOk).store)
  {
    if IsStaged(s, id) && InFuture(timestamp, now) {
      MetaOnlyKeepsConsistent(s, Schedule(s, id, timestamp, now, armOk).store);
    }
  }

  lemma HandlerKeepsConsistent(s: Store, id: PostId, restoreOk: bool, now: int)
    requires Consistent(s)
    ensures Consistent(HandleScheduledPublish(s, id, restoreOk, now))
  {
    PublishKeepsConsistent(s, id, restoreOk, now);
    HandlerIsGuardedPublish(s, id, restoreOk, now);
    var o := Publish(s, id, restoreOk, now);
    if o.result.Ok? {
      MetaOnlyKeepsConsistent(o.store, o.store.(log := o.store.log + [ScheduledPublishCompleted(o.result.value, id)]));
    }
  }
}
